=== FILE: README.md ===
# Session registry model

A Dafny model of the in-memory session registry of a Go HTTP session
package. It covers two stores and the record type they share.

- **`Manager`** (manager.go) is the main store. It offers:
  - optional single login, where a new login kicks the user's earlier session;
  - `OnCreate`, `OnUpdate`, `OnSave` and `OnDelete` hooks;
  - a timeout sweep;
  - session-id lookup from the `sid` query parameter, or else from an
    `Authorization: DSSESSION <base64 id>` header.
- **The legacy singleton `sessionmgr`** (sessionmgr.go) has the same shape
  with different policies:
  - no single login and no delete hooks;
  - header-only lookup;
  - a 3600-second lifetime compared in whole seconds.
- **`Session`** (session.go) is one record. It holds a key/value payload
  whose changes notify the save hooks.

Every store operation is one atomic transition on an immutable value: a
map from session id to record, plus the list of hook calls made so far.
Both stores hold their lock for the whole body of each of their methods,
which is what makes this reading sound for them. The record's own payload
operations take no lock; they too are modelled as single steps (see
`Sessions.PutData` under "Left out"). Other inputs become parameters:

- **Clock:** an integer count of nanoseconds.
- **Random numbers:** the id generator's draws are a sequence given in advance.
- **Map iteration order:** Go's unspecified range order is a listing of the keys.
- **gob and JSON codecs:** partial functions.

Files:

| file | module | contents |
|---|---|---|
| wrappers.dfy | `Wrappers` | `Option` |
| bytestrings.dfy | `ByteStrings` | bytes, Go's string/byte conversions, ASCII upper-casing |
| base64.dfy | `Base64` | standard base64 (section 4 of RFC 4648) as Go's `StdEncoding` decodes it, with its encoder |
| sessionids.dfy | `SessionIds` | `"%d.%d.%d"` ids, their parser, `url.QueryEscape`, the retry loop |
| session.dfy | `Sessions` | the record, its payload operations, save-hook gating |
| registry.dfy | `Registry` | the table, the first-match scan, the eviction sweep, counting |
| auth.dfy | `Auth` | session-id extraction from a request |
| manager.dfy | `Managers` | `Manager` |
| legacy.dfy | `Legacy` | `sessionmgr` |
| startup.dfy | `Startup` | the package-level `once` both constructors share |

The three source files do not agree with each other in a few places (the
package as written does not compile), so the model takes one consistent
reading:

- **User ids are strings**, as `Session.mUserID` declares (session.go:14).
  manager.go passes `interface{}` values into that field.
- **`NewSessionGob`'s `mOnSaveGob` is dropped.** sessionmgr.go:220 sets this
  field, but `Session` does not declare it and nothing reads it. Such a
  record gets no save hook at all.
- **`OnDelete` must be set.** `EndSession` and `eraseSession` call it
  without a nil check (manager.go:120, 131), where a nil hook would panic.
  The functions that reach those calls require the hook to be set:
  `Managers.EndSession`, `Managers.EraseSession` when the user has a record,
  `Managers.StartSession` with single login on when the user has a record
  (through `Managers.CanStart`), `Managers.Close`, and
  `Managers.CloseAsWritten` when the record has a manager.
- **Scheme case is compared in ASCII.** `strings.ToUpper` (manager.go:176;
  sessionmgr.go:159) maps Unicode runes, while `ByteStrings.UpperAscii`
  maps bytes `a`-`z` only. The two agree on whether the result equals
  `"DSSESSION "`. That target is ten ASCII bytes, and the input is ten
  bytes. A non-ASCII rune is at least two bytes and upper-cases either to
  a non-ASCII rune or, as `ı` and `ſ` do, to one ASCII byte, shortening
  the result. An invalid byte becomes the three-byte replacement rune.
  So only an all-ASCII prefix can match, and there the two functions
  coincide.
- **`Time.Unix()` rounds down.** The legacy sweep compares whole seconds,
  and `Legacy.UnixSeconds` floors the nanosecond count, also before the
  epoch, as Go does.
- **Lookup does not check expiry.** Neither store tests a record's age in
  `GetSession`. A hit on a record past its lifetime that no sweep has
  removed yet returns it and stamps it now, so the next sweep keeps it
  (`Managers.ExpiredHitRevived`, `Legacy.ExpiredHitRevived`). The legacy
  sweep runs once an hour, so its records can be revived after almost two
  hours idle. Only the sweep enforces the lifetime.

## Model

| member | source | states |
|---|---|---|
| Managers.NewManager | manager.go:60-70 | the modifier receives lifetime 3600 s and single login on, with no hooks; the store starts empty and valid |
| SessionIds.GenerateSessionID | manager.go:100-113 | the id is not a live key, comes from the first draw whose id is not live, parses back to three numbers below 1000000, is unchanged by query escaping, and is at most 20 bytes |
| SessionIds.ParseFormat | manager.go:107 | printing three numbers as `"%d.%d.%d"` and parsing the result gives the numbers back |
| SessionIds.FormatInjective | manager.go:107 | different draws never print as the same id |
| SessionIds.DecimalRoundTrip | manager.go:107 | `%d` of a natural number reads back as that number |
| SessionIds.QueryEscapeIdentity | manager.go:149 | `url.QueryEscape` leaves a string unchanged exactly when every byte is unreserved |
| SessionIds.QueryEscapeFormatted | manager.go:149 | escaping a generated id leaves it unchanged, so the inserted key is still fresh |
| Managers.EndSession | manager.go:116-125 | the id is absent afterwards; every other entry is unchanged; `OnDelete(sid, FlagClose)` is recorded even when the id was not live |
| Managers.EraseSession | manager.go:128-138 | with no record of the user nothing changes; otherwise exactly one record of the user goes, with exactly one `OnDelete(k, FlagErase)`; under the one-record-per-user invariant the user has none left |
| Registry.FirstOwnedBy | manager.go:129-130 | the scan finds a record of the user exactly when the user has one, and what it finds belongs to the user |
| Registry.EraseOnlyRecord | manager.go:134 | deleting the only record of a user leaves that user with none and keeps the invariant |
| Managers.Admit | manager.go:149-163 | the new id was not live; the record is stamped now, has an empty payload and belongs to the manager; only that key is added; `OnCreate` is recorded after the insert when the hook is set |
| Managers.StartSession | manager.go:141-166 | the new record is filed under its id with the user, now and an empty payload; other entries are unchanged; without single login nothing is removed; validity is kept |
| Managers.StartIsEraseThenAdmit | manager.go:145-149 | with single login on, a start is an erase followed by a fresh insert, and the erase leaves a fresh draw |
| Managers.StartSessionKeepsOthers | manager.go:145-159 | with single login on, the trace is the erase's `FlagErase` event then `OnCreate`; every other user's records are unchanged |
| Managers.StartSessionSingleLogin | manager.go:145-157 | with single login on, at most one record per user is kept, and afterwards the new record is the user's only one |
| Registry.InsertOnlyRecord | manager.go:157 | filing a record for a user who holds none keeps one record per user |
| Managers.ReloginEvicts | manager.go:145-157 | a second login removes the user's earlier record with `FlagErase`; that id is not found again unless the new record was drawn with it |
| Managers.ErasedIdReissued | manager.go:145-149 | the id just erased can be issued again to the new record, because the erase runs before the draw |
| Auth.ParseAuthorization | manager.go:175-187 | a header is accepted exactly when it has the `DSSESSION ` prefix in any letter case and the rest decodes as standard base64; the id is the decoded bytes |
| Auth.ExtractSid | manager.go:173-188 | a non-empty query `sid` wins; with an empty query the id is the header's parse |
| Auth.HasSchemeCaseBlind | manager.go:176 | the scheme test accepts exactly the ten-character prefixes that spell `DSSESSION ` with each letter in either case |
| ByteStrings.UpperAscii | manager.go:176 | upper-casing keeps the length, leaves no lower-case ASCII letter, changes only lower-case letters, and maps each to its capital |
| Auth.NonAlphabetRejected | manager.go:181-185 | `DSSESSION !!!!` is refused: `!` is outside the base64 alphabet |
| Auth.MisplacedPaddingRejected | manager.go:181-185 | `DSSESSION QQ==QQ==` is refused: padding may end only the last group |
| Auth.TrailingBitsIgnored | manager.go:181-187 | `DSSESSION QR==` names the id `A`: the unused low bits of the last digit are not checked |
| Auth.HeaderSkipsNewline | manager.go:181-187 | a carriage return or line feed anywhere after the scheme does not change the result |
| Auth.AuthorizationRoundTrip | manager.go:176-187 | any letter-case spelling of the scheme, followed by the base64 of an id, yields that id |
| Auth.HeaderRoundTrip | manager.go:173-187 | a request with no query and the client's header yields the header's id |
| Auth.AuthorizationRejectsUnpadded | manager.go:181-185 | a header whose encoded part is not whole 4-character groups is refused |
| Auth.LowerCaseScheme | manager.go:176 | the lower-case scheme `dssession ` is accepted |
| Auth.BearerRejected | manager.go:176 | a `Bearer` header is refused even when the rest decodes |
| Base64.DecodeEncode | manager.go:181 | standard base64 decoding inverts encoding |
| Base64.DecodeRejectsLength | manager.go:181-185 | input that is not whole 4-character groups, line breaks skipped, fails to decode |
| Base64.DecodeSkipsNewline | manager.go:181 | a carriage return or line feed anywhere in the input is ignored |
| ByteStrings.ToBytesFromBytes | manager.go:187 | `string([]byte(s))` gives back `s` |
| Managers.GetSession | manager.go:169-203 | a miss or an unusable request changes nothing; a hit stamps only that record with now, records `OnUpdate(sid, now)` when the hook is set, and keeps validity and one record per user |
| Managers.GetLive | manager.go:190-192 | a request naming a live id returns that record stamped now |
| Managers.HeaderFindsLive | manager.go:173-192 | a request carrying a client's header for a live id returns that record stamped now |
| Managers.StartThenGet | manager.go:149-192 | a new session is found by its id in the query and in the header |
| Managers.EndThenGet | manager.go:116-125 | after `EndSession(sid)` no request naming `sid` finds a record |
| Managers.Gc | manager.go:78-92 | exactly the records whose deadline is strictly before now are removed; the rest are unchanged; only `FlagTimeout` deletions are appended, and only when the hook is set |
| Registry.Sweep | manager.go:82-91 | the sweep keeps exactly the records not selected and lists the deleted ids without repetition |
| Registry.SweepKeepsUnexpired | manager.go:82-91 | whatever order the range visits keys in, the sweep keeps exactly the unexpired records |
| Registry.SweepNothingExpired | manager.go:82-91 | a sweep that finds nothing expired changes nothing |
| Managers.GcDeletesEachOnce | manager.go:82-91 | each evicted id gets exactly one `OnDelete(sid, FlagTimeout)`, and no other id gets one |
| Registry.AnnounceOnce | manager.go:85-89 | distinct ids announced with an injective event are each announced exactly once |
| Managers.GcIdempotent | manager.go:82-92 | a second sweep at the same time changes nothing |
| Managers.LifetimeExact | manager.go:83 | for lifetimes up to 9223372036 s, the nanosecond product does not wrap |
| Managers.LifetimeOverflow | manager.go:83 | one second more and the int64 product wraps negative, so a record counts as expired right away |
| Managers.ExpiredHitRevived | manager.go:189-192 | a lookup finds a record past its deadline that no sweep has removed yet, stamps it now, and the next sweep at the same time keeps it |
| Managers.IdleSessionGone | manager.go:82-90 | a record idle for longer than its lifetime is swept and no longer found |
| Managers.AddSession | manager.go:206-233 | the record under `sid` is inserted or replaced with the given user and time; the payload is the decoded blob, or empty when there is none or it fails; nothing else changes and no hook runs |
| Managers.AddSessionBypassesSingleLogin | manager.go:206-230 | restoring a record can give a user a second live record |
| Sessions.Restored | manager.go:223-228 | the payload is the decoded blob when there is one and it decodes, else empty |
| Sessions.SessID | session.go:61-64 | returns the id the record was filed under |
| Sessions.UserID | session.go:66-69 | returns the user the record was created for |
| Sessions.HasData | session.go:21-25 | a key is present exactly when it is in the payload, also when its value is nil |
| Sessions.GetData | session.go:27-30 | a missing key reads as nil; a present key reads as its value |
| Sessions.PutData | session.go:33-42 | afterwards the key holds the value; all other keys and the id, user, time and hooks are unchanged; the save hooks see the updated payload |
| Sessions.RemoveData | session.go:45-53 | afterwards the key is absent; other keys are unchanged; removing an absent key leaves the record as it was; the save hooks still run |
| Sessions.Notify | session.go:36-41 | the JSON save fires only with a record hook and a payload that serialises, and comes first; the gob save fires only with a manager whose `OnSave` is set and a payload that serialises, and comes last; each receives the whole payload |
| Sessions.SilentWithoutHooks | session.go:72-89 | with no record hook and no manager `OnSave`, a payload change fires nothing |
| Managers.ManagedSavesGobOnly | session.go:39-41 | on a record of a valid manager, a payload change fires no JSON save, and one gob save of the record's own id and whole new payload exactly when `OnSave` is set and the payload serialises |
| Managers.UpdateNamesLookedUpId | manager.go:190-199 | in a valid manager, the `OnUpdate` call of a hit carries the id that was looked up |
| Managers.Close | session.go:56-59 | closing a managed record removes its own id, keeps every other entry and the options, records `OnDelete(id, FlagClose)`, and keeps validity |
| Managers.CloseAsWritten | session.go:56-59 | as written, closing panics exactly when the record has no manager, and otherwise ends its id |
| Legacy.CloseAsWrittenPanics | session.go:56-59 | every record of the legacy store has no manager, so closing it as written panics |
| Legacy.Close | session.go:56-59 | with the missing nil check, a legacy record is ended in its own store: its id is gone, other entries and the hook flags are unchanged, no hook runs, validity is kept |
| Legacy.CloseThenGet | session.go:56-59 | after the corrected close, no header naming the record finds it |
| Legacy.SessionMgr | sessionmgr.go:45-48 | the store starts empty and valid, with the hooks the caller assigns |
| Startup.SessionMgrShared | sessionmgr.go:42-53 | the store is built only when the package's `once` has not fired, and is then saved in `ins`; otherwise the globals are left as they are and the singleton is returned, nil or not |
| Startup.NewManagerShared | manager.go:54-70 | building a `Manager` fires the package's `once`, leaves the singleton as it was, and returns the same manager `NewManager` builds |
| Startup.ManagerFirstLeavesNoStore | manager.go:55 | when a `Manager` is built first, `SessionMgr` returns nil on every call |
| Startup.StoreBuiltInAnyOrder | sessionmgr.go:42-53 | with a `once` per store, `SessionMgr` returns the built store whatever was constructed before |
| Legacy.UnixSeconds | sessionmgr.go:61 | `Unix()` rounds down: the result is the whole second whose nanosecond span contains the time, before the epoch too |
| Legacy.Gc | sessionmgr.go:56-67 | exactly the records whose whole-second last access plus 3600 is strictly before the current second are removed; only `OnTimeout` calls are appended, and only when that hook is set |
| Legacy.GcTimesOutEachOnce | sessionmgr.go:60-67 | each evicted id gets exactly one `OnTimeout`, and no other id gets one |
| Legacy.ExpiredImpliesManagerExpired | sessionmgr.go:61 | a record this store evicts is also past `Manager`'s nanosecond deadline for the same lifetime |
| Legacy.ManagerEvictsFirst | sessionmgr.go:61 | the converse fails: one nanosecond past the deadline, `Manager` evicts and this store keeps |
| Legacy.EraseSession | sessionmgr.go:91-100 | at most one record of the user goes, no hook runs, and nothing changes when the user has none |
| Legacy.EraseAgrees | sessionmgr.go:94-99 | on the same table and order, both stores erase the same record |
| Legacy.EndSession | sessionmgr.go:103-108 | the id is absent afterwards; the other entries are unchanged; a missing id changes nothing; no hook runs |
| Legacy.StartSession | sessionmgr.go:111-126 | a fresh id gets a record stamped now with an empty payload and the store's `OnSave` as its own hook; only that key is added and no hook runs |
| Legacy.NoSingleLogin | sessionmgr.go:111-126 | a user who already holds a record keeps it and gets a second one |
| Legacy.GetSession | sessionmgr.go:154-186 | only the header is read; a miss changes nothing; a hit stamps only that record with now, keeps the hook flags, and no hook runs |
| Legacy.ExpiredHitRevived | sessionmgr.go:163-184 | a lookup finds a record idle past the lifetime that no sweep has removed yet, stamps it now, and the next sweep keeps it |
| Legacy.QueryIgnored | sessionmgr.go:158-161 | a request naming a live id only in its query finds nothing here, while `Manager` finds it |
| Legacy.StartThenGet | sessionmgr.go:115-168 | a new record is found through the client's header |
| Legacy.NewSession | sessionmgr.go:188-210 | the record under `sid` is inserted or replaced with the user, now, the decoded JSON payload or an empty one, and the store's `OnSave` |
| Legacy.NewSessionGob | sessionmgr.go:212-233 | the same from gob bytes, with the empty user and no save hook |
| Legacy.DetachedSavesJsonOnly | sessionmgr.go:116-122 | a payload change on one of this store's records fires at most the JSON save, never a gob save |

## Left out

- **Locking and background scheduling.** The `sync.RWMutex` and the
  self-rescheduling of `gc` through goroutines and `time.AfterFunc`
  (manager.go:72, 94-96; sessionmgr.go:50, 69-71) are not modelled. Each
  method is one atomic step, and one sweep is one call.
- **One clock reading per sweep.** `gc` reads `time.Now()` once per visited
  record. The model uses one `now` for the whole sweep.
- **Random numbers.** `rand.Seed` and `rand.Intn` become the `draws`
  parameter. The retry loop's termination is not proved. Instead, the
  callers require that some draw gives an id that is not live.
- Managers.StartSession: requires a draw that is fresh against the table
  as it was *before* the single-login erase, where the retry loop only
  needs one fresh against the table after it. This excludes the inputs
  whose only fresh draw is the id the erase frees; `Managers.ErasedIdReissued`
  shows that such a draw is then taken.
- **The OpenID Connect fallback.** `getOpenID` and the `OIDC` miss path of
  the legacy `GetSession` (sessionmgr.go:128-151, 170-178) make a network
  call. The model takes `OIDC` off, its zero value.
- **Cookie name and `AuthServerAddr`.** Nothing reads `mCookieName`, so it
  is not part of the store. `AuthServerAddr` belongs to the OIDC path.
- **Payload formats.** gob and JSON are partial function parameters, not
  byte formats. So are the decoders.
  - A decoder that fails half-way may leave part of a payload behind in Go;
    the model leaves it empty.
- Legacy.NewSession: a payload is never nil in the model. In Go, the JSON
  text `null` decodes without error and sets `mValue` to a nil map
  (sessionmgr.go:201). The first `PutData` on that record then panics with
  an assignment to a nil map (session.go:35). The model's decoder can only
  return a map, so `NewSession` followed by `PutData` stores the key
  instead. The model does not cover this crash.
- **Payload values.** `interface{}` payload values are a small `Value` type:
  nil, bool, int and string.
- **Logging** and gob type registration (manager.go:56-57; sessionmgr.go:44)
  are left out. The `once` guarding them is modelled in `Startup`. When
  `SessionMgr` runs first, `NewManager` skips its `uuid.UUID`
  registration; that order is not modelled.
- Legacy.SessionMgr: the store is built only when the package's shared
  `once` has not fired (see "Findings"). The model also fixes `OnSave`
  and `OnTimeout` for the store's lifetime. In Go both are exported
  fields that can be reassigned at any time. Each record copies
  `mgr.OnSave` when it is created (sessionmgr.go:121, 197). So once
  `OnSave` is reset to nil, a live record can still carry a JSON hook,
  and `Legacy.Store.Valid` (`jsonHook ==> onSave`) no longer describes the
  Go state.
- **Hook return values.** Hook errors only reach the log, so no transition
  depends on them.
- **HTTP plumbing.** auth.go is not part of this model. A request is its
  query `sid` and its `Authorization` header, each `""` when absent.
- Sessions.PutData: the payload operations (session.go:22-53) take no lock
  in the source. The model assumes callers serialise access to one
  record. In Go, two handlers writing one record race on `mValue`, which
  is a fatal concurrent map write. `saveGob` can also encode the map while
  another handler writes it. Neither is modelled.
- Managers.Close: requires a managed record and the manager passed in is
  taken to be the record's own. `Owner` records only whether there is a
  manager, not which one. The detached case, where Go panics on the nil
  manager, is modelled separately by `Managers.CloseAsWritten` (see
  "Findings").
- Managers.NewManager: the modifier is a total function in the model. In
  Go, `modOption(&option)` (manager.go:65) is called without a nil check,
  so `NewManager(nil)` panics with a nil function call. The model cannot
  express that call.
- **Shared records.** A Go `*Session` is shared between the map and its
  caller, so a later `PutData` on it is visible in the map. The model
  returns the updated record instead. Writing it back is the caller's step.
- **Time arithmetic.** `Time.Add` saturation on extreme times is left out.
  So is the int64 overflow of the legacy `Unix() + mMaxLifeTime` near the
  end of the int64 range. Times are unbounded integers. Only the
  `Duration` product, where wrap-around is reachable with ordinary
  settings, is modelled.

## Findings

| source | as written | input that shows it | evidently intended | confidence | as-written member | corrected member |
|---|---|---|---|---|---|---|
| manager.go:19, 55; sessionmgr.go:27, 43 | `NewManager` calls `once.Do` on the package-level `once` declared for the legacy singleton, because its own declaration is commented out | `NewManager(...)` and then `SessionMgr()`: the singleton's initialisation never runs, so `SessionMgr()` returns nil on every call | each constructor guards its own one-time set-up, so `SessionMgr()` always returns a built store | high, not executed | Startup.ManagerFirstLeavesNoStore | Startup.StoreBuiltInAnyOrder |
| session.go:56-59 | `Close` calls `EndSession` on `mManager` without a nil check | any record from the legacy store's `StartSession`, `NewSession` or `NewSessionGob`, which is what `Auth` passes to handlers (auth.go:23, 29): its `mManager` is nil, so `s.Close()` reaches `mgr.mLock.Lock()` (manager.go:117) and panics | a detached record is ended in the store that issued it | high, not executed | Legacy.CloseAsWrittenPanics | Legacy.Close |

=== FILE: auth.dfy ===
/** Finding the session id in a request: the `sid` query parameter, or an
    `Authorization: DSSESSION <base64 id>` header whose scheme is matched
    without regard to case (manager.go:173-188, sessionmgr.go:158-167). */
module Auth {
  import opened Wrappers
  import opened ByteStrings
  import Base64
  import opened SessionIds

  /** What the lookup reads of a request: `r.URL.Query().Get("sid")` and
      `r.Header.Get("Authorization")`, each `""` when absent. */
  datatype Request = Request(querySid: string, authorization: string)

  const Scheme: string := "DSSESSION "

  predicate HasScheme(auth: string) {
    |auth| >= |Scheme| && UpperAscii(auth[..|Scheme|]) == Scheme
  }

  /** The header path: reject a header of nine bytes or fewer or with the
      wrong scheme, then base64-decode the rest. */
  function ParseAuthorization(auth: string): (r: Option<Sid>)
    ensures r.Some? <==> HasScheme(auth) && Base64.Decode(auth[|Scheme|..]).Some?
    ensures r.Some? ==> r.value == FromBytes(Base64.Decode(auth[|Scheme|..]).value)
    ensures r.Some? ==> IsByteString(r.value)
  {
    if |auth| <= 9 || UpperAscii(auth[0..10]) != Scheme then None
    else match Base64.Decode(auth[10..])
      case None => None
      case Some(bytes) => Some(FromBytes(bytes))
  }

  /** `Manager.GetSession`'s extraction: a non-empty query `sid` wins and
      the header is then never read. */
  function ExtractSid(req: Request): (r: Option<Sid>)
    ensures req.querySid != "" ==> r == Some(req.querySid)
    ensures req.querySid == "" ==> r == ParseAuthorization(req.authorization)
    ensures req.querySid == "" && r.Some? ==> HasScheme(req.authorization)
  {
    if req.querySid != "" then Some(req.querySid)
    else ParseAuthorization(req.authorization)
  }

  /** The header a client sends for `sid`, under any spelling of the scheme. */
  function AuthorizationFor(scheme: string, sid: Sid): string
    requires IsByteString(sid)
  {
    scheme + Base64.Encode(ToBytes(sid))
  }

  /** Any case variant of the scheme followed by the base64 encoding of an
      id yields that id. */
  lemma AuthorizationRoundTrip(scheme: string, sid: Sid)
    requires IsByteString(sid)
    requires |scheme| == |Scheme| && UpperAscii(scheme) == Scheme
    ensures ParseAuthorization(AuthorizationFor(scheme, sid)) == Some(sid)
  {
    var auth := AuthorizationFor(scheme, sid);
    assert auth[0..10] == scheme;
    assert auth[10..] == Base64.Encode(ToBytes(sid));
    Base64.DecodeEncode(ToBytes(sid));
    ToBytesFromBytes(sid);
  }

  /** A request carrying only the header finds the id the header encodes. */
  lemma HeaderRoundTrip(sid: Sid)
    requires IsByteString(sid)
    ensures ExtractSid(Request("", AuthorizationFor(Scheme, sid))) == Some(sid)
  {
    assert UpperAscii(Scheme) == Scheme;
    AuthorizationRoundTrip(Scheme, sid);
  }

  /** A header whose encoded part, line breaks skipped, is not a whole
      number of four-character groups is refused. */
  lemma AuthorizationRejectsUnpadded(auth: string)
    requires |auth| >= 10
    requires |Base64.StripNewlines(auth[10..])| % 4 != 0
    ensures ParseAuthorization(auth) == None
  {
    Base64.DecodeRejectsLength(auth[10..]);
  }

  /** The scheme test is a case-blind comparison: each of the first ten
      characters is the scheme's own character or, for a letter, its
      lower-case form. */
  lemma HasSchemeCaseBlind(auth: string)
    ensures HasScheme(auth) <==>
      && |auth| >= |Scheme|
      && forall i :: 0 <= i < |Scheme| ==>
           auth[i] == Scheme[i] || ('A' <= Scheme[i] <= 'Z' && auth[i] as int == Scheme[i] as int + 32)
  {
    if |auth| >= |Scheme| {
      var u := UpperAscii(auth[..|Scheme|]);
      if forall i :: 0 <= i < |Scheme| ==>
           auth[i] == Scheme[i] || ('A' <= Scheme[i] <= 'Z' && auth[i] as int == Scheme[i] as int + 32) {
        assert forall i :: 0 <= i < |Scheme| ==> u[i] == Scheme[i];
      }
    }
  }

  /** A remainder with a character outside the base64 alphabet is refused. */
  lemma NonAlphabetRejected()
    ensures ParseAuthorization("DSSESSION !!!!") == None
  {
    var auth := "DSSESSION !!!!";
    assert auth[..|Scheme|] == Scheme;
    assert UpperAscii(Scheme) == Scheme;
    assert auth[|Scheme|..] == "!!!!";
    assert Base64.StripNewlines("!!!!") == "!!!!" by {
      Base64.StripNewlinesNoop("!!!!");
    }
  }

  /** Padding anywhere but at the end of the remainder is refused: the
      first group of `QQ==QQ==` is padded but is not the last. */
  lemma MisplacedPaddingRejected()
    ensures ParseAuthorization("DSSESSION QQ==QQ==") == None
  {
    var auth := "DSSESSION QQ==QQ==";
    var rest := "QQ==QQ==";
    assert auth[..|Scheme|] == Scheme;
    assert UpperAscii(Scheme) == Scheme;
    assert auth[|Scheme|..] == rest;
    Base64.StripNewlinesNoop(rest);
    PaddedGroupNotLast(rest[..4]);
    assert Base64.DecodeGroups(rest) == None;
  }

  /** A group ending in padding decodes only as the last group. */
  lemma PaddedGroupNotLast(q: string)
    requires |q| == 4 && q[3] == Base64.Pad
    ensures Base64.DecodeGroup(q, false) == None
  {
    assert Base64.DecodeDigit(q[3]).None?;
  }

  /** The unused low bits of the last digit are not checked: `QR==`
      differs from the encoding `QQ==` of `A` only there and still names
      the id `A`. */
  lemma TrailingBitsIgnored()
    ensures ParseAuthorization("DSSESSION QR==") == Some("A")
  {
    var auth := "DSSESSION QR==";
    var rest := "QR==";
    assert auth[..|Scheme|] == Scheme;
    assert UpperAscii(Scheme) == Scheme;
    assert auth[|Scheme|..] == rest;
    Base64.StripNewlinesNoop(rest);
    QRGroup();
    assert rest[..4] == rest && rest[4..] == "";
    assert Base64.DecodeGroups(rest[4..]) == Some([]);
    assert [65] + [] == [65];
    assert Base64.DecodeGroups(rest) == Some([65]);
    assert FromBytes([65]) == "A";
  }

  lemma QRGroup()
    ensures Base64.DecodeGroup("QR==", true) == Some([65])
  {
    var q := "QR==";
    assert Base64.DecodeDigit(q[0]) == Some(16);
    assert Base64.DecodeDigit(q[1]) == Some(17);
    assert Base64.DecodeDigit(q[2]).None? && Base64.DecodeDigit(q[3]).None?;
  }

  /** A line break anywhere after the scheme does not change the id. */
  lemma HeaderSkipsNewline(a: string, b: string, c: char)
    requires c == '\r' || c == '\n'
    ensures ParseAuthorization(Scheme + a + [c] + b) == ParseAuthorization(Scheme + a + b)
  {
    var with, without := Scheme + a + [c] + b, Scheme + a + b;
    assert with[..|Scheme|] == Scheme && without[..|Scheme|] == Scheme;
    assert with[|Scheme|..] == a + [c] + b;
    assert without[|Scheme|..] == a + b;
    Base64.DecodeSkipsNewline(a, b, c);
  }

  /** The lower-case scheme is as good as the upper-case one. */
  lemma LowerCaseScheme(sid: Sid)
    requires IsByteString(sid)
    ensures ParseAuthorization(AuthorizationFor("dssession ", sid)) == Some(sid)
  {
    assert UpperAscii("dssession ") == Scheme;
    AuthorizationRoundTrip("dssession ", sid);
  }

  /** A scheme other than `DSSESSION` is refused even when the rest decodes,
      for example the usual `Bearer`. */
  lemma BearerRejected(sid: Sid)
    requires IsByteString(sid)
    ensures ParseAuthorization("Bearer    " + Base64.Encode(ToBytes(sid))) == None
  {
    var auth := "Bearer    " + Base64.Encode(ToBytes(sid));
    assert auth[0..10] == "Bearer    ";
    assert UpperAscii("Bearer    ")[0] == 'B' != Scheme[0];
  }
}

=== FILE: base64.dfy ===
/** Standard base64 (section 4 of RFC 4648) as Go's `base64.StdEncoding`
    decodes it: padding is required, carriage returns and line feeds are
    skipped wherever they occur, and the unused low bits of the last digit
    before padding are not checked. The encoder is the partner the round
    trip is stated against. */
module Base64 {
  import opened Wrappers
  import opened ByteStrings

  type Digit = v: int | 0 <= v < 64

  const Pad: char := '='

  /** The value of one alphabet character, or `None` for any other character. */
  function DecodeDigit(c: char): (r: Option<Digit>)
    ensures r.Some? ==> c != Pad && c != '\r' && c != '\n'
  {
    if 'A' <= c <= 'Z' then Some(c as int - 'A' as int)
    else if 'a' <= c <= 'z' then Some(c as int - 'a' as int + 26)
    else if '0' <= c <= '9' then Some(c as int - '0' as int + 52)
    else if c == '+' then Some(62)
    else if c == '/' then Some(63)
    else None
  }

  function EncodeDigit(v: Digit): (c: char)
    ensures DecodeDigit(c) == Some(v)
  {
    if v < 26 then ('A' as int + v) as char
    else if v < 52 then ('a' as int + (v - 26)) as char
    else if v < 62 then ('0' as int + (v - 52)) as char
    else if v == 62 then '+'
    else '/'
  }

  /** Encodes one group of one to three bytes as four characters, padded. */
  function EncodeGroup(bs: seq<Byte>): (s: string)
    requires 1 <= |bs| <= 3
    ensures |s| == 4
  {
    var b0 := bs[0];
    var b1 := if |bs| > 1 then bs[1] else 0;
    var b2 := if |bs| > 2 then bs[2] else 0;
    [ EncodeDigit(b0 / 4),
      EncodeDigit(b0 % 4 * 16 + b1 / 16),
      if |bs| > 1 then EncodeDigit(b1 % 16 * 4 + b2 / 64) else Pad,
      if |bs| > 2 then EncodeDigit(b2 % 64) else Pad ]
  }

  /** Every character of an encoding is an alphabet character or padding. */
  predicate InAlphabet(s: string) {
    forall i :: 0 <= i < |s| ==> DecodeDigit(s[i]).Some? || s[i] == Pad
  }

  function Encode(bs: seq<Byte>): (s: string)
    ensures |s| == 4 * ((|bs| + 2) / 3)
    ensures InAlphabet(s)
    decreases |bs|
  {
    if |bs| == 0 then ""
    else if |bs| <= 3 then EncodeGroup(bs)
    else EncodeGroup(bs[..3]) + Encode(bs[3..])
  }

  function StripNewlines(s: string): (r: string)
    ensures |r| <= |s|
  {
    if |s| == 0 then ""
    else (if s[0] == '\r' || s[0] == '\n' then "" else [s[0]]) + StripNewlines(s[1..])
  }

  /** Decodes one four-character group; padding is accepted only in the
      last group of the input. */
  function DecodeGroup(q: string, last: bool): Option<seq<Byte>>
    requires |q| == 4
  {
    var d0 := DecodeDigit(q[0]);
    var d1 := DecodeDigit(q[1]);
    var d2 := DecodeDigit(q[2]);
    var d3 := DecodeDigit(q[3]);
    if d0.None? || d1.None? then None
    else
      var b0: Byte := d0.value * 4 + d1.value / 16;
      if d2.Some? && d3.Some? then
        Some([b0, d1.value % 16 * 16 + d2.value / 4, d2.value % 4 * 64 + d3.value])
      else if !last then None
      else if d2.Some? && q[3] == Pad then
        Some([b0, d1.value % 16 * 16 + d2.value / 4])
      else if q[2] == Pad && q[3] == Pad then
        Some([b0])
      else None
  }

  function DecodeGroups(s: string): Option<seq<Byte>>
    decreases |s|
  {
    if |s| == 0 then Some([])
    else if |s| < 4 then None
    else
      match DecodeGroup(s[..4], |s| == 4)
      case None => None
      case Some(head) =>
        match DecodeGroups(s[4..])
        case None => None
        case Some(tail) => Some(head + tail)
  }

  /** `base64.StdEncoding.DecodeString`; `None` stands for its error. */
  function Decode(s: string): Option<seq<Byte>> {
    DecodeGroups(StripNewlines(s))
  }

  lemma {:induction false} StripNewlinesNoop(s: string)
    requires forall i :: 0 <= i < |s| ==> s[i] != '\r' && s[i] != '\n'
    ensures StripNewlines(s) == s
  {
    if |s| > 0 {
      StripNewlinesNoop(s[1..]);
      assert s == [s[0]] + s[1..];
    }
  }

  lemma GroupRoundTrip(bs: seq<Byte>, last: bool)
    requires 1 <= |bs| <= 3
    requires |bs| < 3 ==> last
    ensures DecodeGroup(EncodeGroup(bs), last) == Some(bs)
  {
    if |bs| == 1 {
      OneByteRoundTrip(bs[0], last);
      assert bs == [bs[0]];
    } else if |bs| == 2 {
      TwoBytesRoundTrip(bs[0], bs[1], last);
      assert bs == [bs[0], bs[1]];
    } else {
      ThreeBytesRoundTrip(bs[0], bs[1], bs[2], last);
      assert bs == [bs[0], bs[1], bs[2]];
    }
  }

  lemma OneByteRoundTrip(b0: Byte, last: bool)
    requires last
    ensures DecodeGroup(EncodeGroup([b0]), last) == Some([b0])
  {
    var q := EncodeGroup([b0]);
    var v1 := b0 % 4 * 16;
    DigitsRoundTrip(b0, 0, 0);
    assert q == [EncodeDigit(b0 / 4), EncodeDigit(v1), Pad, Pad];
    assert DecodeDigit(q[0]) == Some(b0 / 4);
    assert DecodeDigit(q[1]) == Some(v1);
    assert DecodeDigit(q[2]).None? && DecodeDigit(q[3]).None?;
  }

  lemma TwoBytesRoundTrip(b0: Byte, b1: Byte, last: bool)
    requires last
    ensures DecodeGroup(EncodeGroup([b0, b1]), last) == Some([b0, b1])
  {
    var q := EncodeGroup([b0, b1]);
    var v1 := b0 % 4 * 16 + b1 / 16;
    var v2 := b1 % 16 * 4;
    DigitsRoundTrip(b0, b1, 0);
    assert q == [EncodeDigit(b0 / 4), EncodeDigit(v1), EncodeDigit(v2), Pad];
    assert DecodeDigit(q[0]) == Some(b0 / 4);
    assert DecodeDigit(q[1]) == Some(v1);
    assert DecodeDigit(q[2]) == Some(v2);
    assert DecodeDigit(q[3]).None?;
  }

  lemma ThreeBytesRoundTrip(b0: Byte, b1: Byte, b2: Byte, last: bool)
    ensures DecodeGroup(EncodeGroup([b0, b1, b2]), last) == Some([b0, b1, b2])
  {
    var q := EncodeGroup([b0, b1, b2]);
    var v1 := b0 % 4 * 16 + b1 / 16;
    var v2 := b1 % 16 * 4 + b2 / 64;
    DigitsRoundTrip(b0, b1, b2);
    assert q == [EncodeDigit(b0 / 4), EncodeDigit(v1), EncodeDigit(v2), EncodeDigit(b2 % 64)];
    assert DecodeDigit(q[0]) == Some(b0 / 4);
    assert DecodeDigit(q[1]) == Some(v1);
    assert DecodeDigit(q[2]) == Some(v2);
    assert DecodeDigit(q[3]) == Some(b2 % 64);
  }

  /** The bit shuffling of one group undoes itself. */
  lemma DigitsRoundTrip(b0: Byte, b1: Byte, b2: Byte)
    ensures b0 / 4 * 4 + (b0 % 4 * 16 + b1 / 16) / 16 == b0
    ensures (b0 % 4 * 16 + b1 / 16) % 16 * 16 + (b1 % 16 * 4 + b2 / 64) / 4 == b1
    ensures (b1 % 16 * 4 + b2 / 64) % 4 * 64 + b2 % 64 == b2
  {
    var v1 := b0 % 4 * 16 + b1 / 16;
    var v2 := b1 % 16 * 4 + b2 / 64;
    assert v1 / 16 == b0 % 4 && v1 % 16 == b1 / 16;
    assert v2 / 4 == b1 % 16 && v2 % 4 == b2 / 64;
  }

  lemma {:induction false} GroupsRoundTrip(bs: seq<Byte>)
    ensures DecodeGroups(Encode(bs)) == Some(bs)
    decreases |bs|
  {
    if |bs| == 0 {
    } else if |bs| <= 3 {
      GroupRoundTrip(bs, true);
      var s := Encode(bs);
      assert s == EncodeGroup(bs);
      assert s[..4] == s && s[4..] == "";
      assert DecodeGroups(s[4..]) == Some([]);
      assert bs + [] == bs;
    } else {
      var s := Encode(bs);
      var head := EncodeGroup(bs[..3]);
      var rest := Encode(bs[3..]);
      assert s == head + rest;
      assert s[..4] == head && s[4..] == rest;
      GroupRoundTrip(bs[..3], false);
      GroupsRoundTrip(bs[3..]);
      assert bs == bs[..3] + bs[3..];
    }
  }

  /** Decoding an encoding gives back the bytes. */
  lemma DecodeEncode(bs: seq<Byte>)
    ensures Decode(Encode(bs)) == Some(bs)
  {
    var s := Encode(bs);
    assert forall i :: 0 <= i < |s| ==> s[i] != '\r' && s[i] != '\n';
    StripNewlinesNoop(s);
    GroupsRoundTrip(bs);
  }

  lemma {:induction false} GroupsRejectLength(s: string)
    requires |s| % 4 != 0
    ensures DecodeGroups(s) == None
    decreases |s|
  {
    if |s| >= 4 {
      GroupsRejectLength(s[4..]);
    }
  }

  /** Input whose length, once line breaks are skipped, is not a multiple
      of four is rejected: padding is mandatory. */
  lemma DecodeRejectsLength(s: string)
    requires |StripNewlines(s)| % 4 != 0
    ensures Decode(s) == None
  {
    GroupsRejectLength(StripNewlines(s));
  }

  /** Line breaks anywhere in the input are ignored. */
  lemma {:induction false} DecodeSkipsNewline(a: string, b: string, c: char)
    requires c == '\r' || c == '\n'
    ensures Decode(a + [c] + b) == Decode(a + b)
  {
    StripAppend(a, [c] + b);
    StripAppend(a, b);
    assert [c] + b == [c] + b[..];
    assert StripNewlines([c] + b) == StripNewlines(b) by {
      assert ([c] + b)[1..] == b;
    }
    assert a + [c] + b == a + ([c] + b);
  }

  lemma {:induction false} StripAppend(a: string, b: string)
    ensures StripNewlines(a + b) == StripNewlines(a) + StripNewlines(b)
    decreases |a|
  {
    if |a| > 0 {
      assert (a + b)[1..] == a[1..] + b;
      StripAppend(a[1..], b);
    } else {
      assert a + b == b;
    }
  }
}

=== FILE: bytestrings.dfy ===
/** Go strings are byte sequences indexed by byte. The model writes them as
    Dafny `string`s whose characters each stand for one byte, that is, whose
    code points are below 256. */
module ByteStrings {

  type Byte = b: int | 0 <= b < 256

  predicate IsByteString(s: string) {
    forall i :: 0 <= i < |s| ==> s[i] as int < 256
  }

  /** Go's `string(bs)` conversion. */
  function FromBytes(bs: seq<Byte>): (s: string)
    ensures |s| == |bs| && IsByteString(s)
    ensures forall i :: 0 <= i < |bs| ==> s[i] as int == bs[i]
  {
    seq(|bs|, i requires 0 <= i < |bs| => bs[i] as char)
  }

  /** Go's `[]byte(s)` conversion. */
  function ToBytes(s: string): (bs: seq<Byte>)
    requires IsByteString(s)
    ensures |bs| == |s|
    ensures forall i :: 0 <= i < |s| ==> bs[i] == s[i] as int
  {
    seq(|s|, i requires 0 <= i < |s| => s[i] as int)
  }

  /** Converting a byte string to bytes and back gives the same string. */
  lemma ToBytesFromBytes(s: string)
    requires IsByteString(s)
    ensures FromBytes(ToBytes(s)) == s
  {
    var t := FromBytes(ToBytes(s));
    assert |t| == |s|;
    forall i | 0 <= i < |s|
      ensures t[i] == s[i]
    {
      assert t[i] as int == s[i] as int;
    }
  }

  /** ASCII upper-casing, one byte at a time. Go's `strings.ToUpper` works
      on runes, but when its result is compared with an all-ASCII string of
      the same byte length, only inputs made of ASCII bytes can match: a
      multi-byte rune never shrinks to a single ASCII byte without the
      total length dropping, and an invalid byte becomes the three-byte
      replacement rune. So on the 10-byte scheme prefix the two agree. */
  function UpperAscii(s: string): (r: string)
    ensures |r| == |s|
    ensures forall i :: 0 <= i < |r| ==> !('a' <= r[i] <= 'z')
    ensures forall i :: 0 <= i < |s| && !('a' <= s[i] <= 'z') ==> r[i] == s[i]
    ensures forall i :: 0 <= i < |s| && 'a' <= s[i] <= 'z' ==> r[i] as int + 32 == s[i] as int
  {
    seq(|s|, i requires 0 <= i < |s| =>
      if 'a' <= s[i] <= 'z' then (s[i] as int - 32) as char else s[i])
  }
}

=== FILE: legacy.dfy ===
/** The older singleton store of sessionmgr.go. It shares the record type,
    the id generator and the header parsing with `Managers`, but has no
    single login, no create, update or delete hooks, a lifetime fixed at
    3600 seconds compared in whole seconds, and an `OnTimeout` hook of its
    own. The OpenID Connect fallback of `GetSession` is switched off (the
    `OIDC` field's zero value) and is not part of this model. */
module Legacy {
  import opened Wrappers
  import opened ByteStrings
  import opened SessionIds
  import opened Sessions
  import opened Registry
  import opened Auth
  import Managers

  /** `mMaxLifeTime` is unexported and nothing but `SessionMgr` sets it. */
  const MaxLifeTime: int := 3600

  /** The store: the table, whether `OnSave` and `OnTimeout` are set, and
      the hook calls made so far. */
  datatype Store = Store(sessions: Table, onSave: bool, onTimeout: bool, trace: seq<Event>) {
    /** Every record is filed under its own id, has no manager, and has a
        JSON hook only when the store has one to give it. */
    predicate Valid() {
      && KeysMatch(sessions)
      && forall k :: k in sessions ==>
           sessions[k].owner == Detached && (sessions[k].jsonHook ==> onSave)
    }
  }

  datatype Started = Started(store: Store, session: Session)

  datatype Looked = Looked(store: Store, session: Option<Session>)

  /** A deserialiser for the JSON text `NewSession` is given. */
  type TextDecoder = string -> Option<Payload>

  /** The store value `SessionMgr` returns when it builds one: empty, with
      the hook flags the caller then assigns to the exported fields. When
      it builds one is the business of `Startup`. */
  function SessionMgr(onSave: bool, onTimeout: bool): (s: Store)
    ensures s.sessions == map[] && s.trace == []
    ensures s.onSave == onSave && s.onTimeout == onTimeout
    ensures s.Valid()
  {
    Store(map[], onSave, onTimeout, [])
  }

  /** `Time.Unix()`: whole seconds, rounded down also before the epoch. */
  function UnixSeconds(t: Time): (secs: int)
    ensures secs * Managers.NanosPerSecond <= t < (secs + 1) * Managers.NanosPerSecond
  {
    t / Managers.NanosPerSecond
  }

  /** The sweep's test: last access in seconds plus the lifetime is
      strictly before the current second. */
  predicate Expired(now: Time, s: Session) {
    UnixSeconds(s.lastAccessed) + MaxLifeTime < UnixSeconds(now)
  }

  function ExpiredAt(now: Time): Session -> bool {
    s => Expired(now, s)
  }

  /** A record the whole-second test evicts is also past the nanosecond
      deadline `Manager` uses for the same lifetime. */
  lemma ExpiredImpliesManagerExpired(o: Managers.Options, now: Time, s: Session)
    requires o.maxLifeTime == MaxLifeTime
    requires Expired(now, s)
    ensures Managers.Expired(o, now, s)
  {
    Managers.LifetimeExact(o);
    var a, b := UnixSeconds(s.lastAccessed), UnixSeconds(now);
    assert s.lastAccessed < (a + 1) * Managers.NanosPerSecond;
    assert b * Managers.NanosPerSecond <= now;
    assert (a + MaxLifeTime + 1) * Managers.NanosPerSecond <= b * Managers.NanosPerSecond;
  }

  /** The converse fails: one nanosecond past the deadline is still within
      the same second, so `Manager` evicts the record and this store keeps
      it. */
  lemma ManagerEvictsFirst(o: Managers.Options, s: Session)
    requires o.maxLifeTime == MaxLifeTime
    requires s.lastAccessed == 0
    ensures var now := MaxLifeTime * Managers.NanosPerSecond + 1;
      Managers.Expired(o, now, s) && !Expired(now, s)
  {
    Managers.LifetimeExact(o);
  }

  function TimeoutEvent(k: Sid): Event {
    TimedOut(k)
  }

  /** `gc`, one run of the sweep at time `now`, visiting the keys in
      `order`; `OnTimeout` is called for each eviction when it is set. */
  function Gc(st: Store, now: Time, order: seq<Sid>): (r: Store)
    requires Enumerates(order, st.sessions)
    ensures forall k :: k in r.sessions <==> k in st.sessions && !Expired(now, st.sessions[k])
    ensures forall k :: k in r.sessions ==> r.sessions[k] == st.sessions[k]
    ensures r.onSave == st.onSave && r.onTimeout == st.onTimeout
    ensures |st.trace| <= |r.trace| && r.trace[..|st.trace|] == st.trace
    ensures forall i :: |st.trace| <= i < |r.trace| ==> r.trace[i].TimedOut?
    ensures !st.onTimeout ==> r.trace == st.trace
    ensures st.Valid() ==> r.Valid()
  {
    var swept := Sweep(st.sessions, order, ExpiredAt(now));
    var events := if st.onTimeout then Announce(swept.evicted, TimeoutEvent) else [];
    st.(sessions := swept.kept, trace := st.trace + events)
  }

  /** Every evicted id gets exactly one `OnTimeout`, and no other id gets one. */
  lemma GcTimesOutEachOnce(st: Store, now: Time, order: seq<Sid>, k: Sid)
    requires Enumerates(order, st.sessions)
    requires st.onTimeout
    ensures Count(Gc(st, now, order).trace[|st.trace|..], TimedOut(k))
         == if k in st.sessions && Expired(now, st.sessions[k]) then 1 else 0
  {
    var swept := Sweep(st.sessions, order, ExpiredAt(now));
    var r := Gc(st, now, order);
    assert r.trace[|st.trace|..] == Announce(swept.evicted, TimeoutEvent);
    AnnounceOnce(swept.evicted, TimeoutEvent, k);
    assert TimeoutEvent(k) == TimedOut(k);
  }

  /** `EraseSession`: deletes the first record of `user` the map range
      meets, if any, and calls no hook. */
  function EraseSession(st: Store, user: UserId, order: seq<Sid>): (r: Store)
    requires Enumerates(order, st.sessions)
    ensures r.onSave == st.onSave && r.onTimeout == st.onTimeout && r.trace == st.trace
    ensures !HasSessionOf(st.sessions, user) ==> r == st
    ensures HasSessionOf(st.sessions, user) ==>
      exists k :: k in st.sessions && st.sessions[k].user == user && r.sessions == st.sessions - {k}
    ensures st.Valid() ==> r.Valid()
  {
    match FirstOwnedBy(st.sessions, order, user)
    case None => st
    case Some(k) => st.(sessions := st.sessions - {k})
  }

  /** Both stores pick the same record to erase: on the same table and the
      same visiting order they leave the same table behind. */
  lemma EraseAgrees(st: Store, m: Managers.Manager, user: UserId, order: seq<Sid>)
    requires m.sessions == st.sessions
    requires Enumerates(order, st.sessions)
    requires HasSessionOf(m.sessions, user) ==> m.options.onDelete
    ensures EraseSession(st, user, order).sessions == Managers.EraseSession(m, user, order).sessions
  {
  }

  /** `EndSession`: deletes the id, live or not, and calls no hook. */
  function EndSession(st: Store, sid: Sid): (r: Store)
    ensures sid !in r.sessions
    ensures sid !in st.sessions ==> r == st
    ensures forall k :: k != sid ==> (k in r.sessions <==> k in st.sessions)
    ensures forall k :: k in r.sessions ==> r.sessions[k] == st.sessions[k]
    ensures r.onSave == st.onSave && r.onTimeout == st.onTimeout && r.trace == st.trace
    ensures st.Valid() ==> r.Valid()
  {
    assert sid !in st.sessions ==> st.sessions - {sid} == st.sessions;
    st.(sessions := st.sessions - {sid})
  }

  /** `StartSession`: a fresh id, a record stamped `now` with an empty
      payload and the store's `OnSave` as its own JSON hook. Earlier
      records of the same user stay. */
  function StartSession(st: Store, user: UserId, now: Time, draws: seq<Draw>): (r: Started)
    requires forall i :: 0 <= i < |draws| ==> draws[i].InRange()
    requires exists i :: 0 <= i < |draws| && FormatSid(draws[i]) !in st.sessions
    ensures r.session.id !in st.sessions
    ensures r.session == Session(r.session.id, user, now, map[], st.onSave, Detached)
    ensures r.session.id != "" && IsByteString(r.session.id)
    ensures r.store.sessions == st.sessions[r.session.id := r.session]
    ensures r.store.sessions.Keys == st.sessions.Keys + {r.session.id}
    ensures r.store.onSave == st.onSave && r.store.onTimeout == st.onTimeout && r.store.trace == st.trace
    ensures st.Valid() ==> r.store.Valid()
  {
    assert exists i :: 0 <= i < |draws| && FormatSid(draws[i]) !in st.sessions.Keys;
    var sid := QueryEscape(GenerateSessionID(st.sessions.Keys, draws));
    var s := Session(sid, user, now, map[], st.onSave, Detached);
    assert st.sessions[sid := s].Keys == st.sessions.Keys + {sid};
    assert st.Valid() ==> st.(sessions := st.sessions[sid := s]).Valid() by {
      if st.Valid() {
        FileKeepsValid(st, s);
      }
    }
    Started(st.(sessions := st.sessions[sid := s]), s)
  }

  /** Filing a detached record under its own id, with a JSON hook only
      when the store has one, keeps the store valid. */
  lemma FileKeepsValid(st: Store, s: Session)
    requires st.Valid()
    requires s.owner == Detached && (s.jsonHook ==> st.onSave)
    ensures st.(sessions := st.sessions[s.id := s]).Valid()
  {
    var t := st.sessions[s.id := s];
    assert KeysMatch(t) by {
      forall k | k in t ensures t[k].id == k {
        if k != s.id {
          assert t[k] == st.sessions[k];
        }
      }
    }
  }

  /** There is no single login here: a user who already holds a record
      ends up with two. */
  lemma NoSingleLogin(st: Store, k: Sid, now: Time, draws: seq<Draw>)
    requires k in st.sessions
    requires forall i :: 0 <= i < |draws| ==> draws[i].InRange()
    requires exists i :: 0 <= i < |draws| && FormatSid(draws[i]) !in st.sessions
    ensures var r := StartSession(st, st.sessions[k].user, now, draws);
      k in r.store.sessions && r.store.sessions[k] == st.sessions[k]
      && !AtMostOnePerUser(r.store.sessions)
  {
    var r := StartSession(st, st.sessions[k].user, now, draws);
    assert r.store.sessions[r.session.id].user == r.store.sessions[k].user;
  }

  /** `GetSession`: only the `Authorization` header is read; on a hit the
      record is stamped `now`. No hook is called. */
  function GetSession(st: Store, req: Request, now: Time): (r: Looked)
    ensures var id := ParseAuthorization(req.authorization);
      r.session.None? <==> id.None? || id.value !in st.sessions
    ensures r.session.None? ==> r.store == st
    ensures r.session.Some? ==>
      var sid := ParseAuthorization(req.authorization).value;
      && r.session.value == st.sessions[sid].(lastAccessed := now)
      && r.store.sessions == st.sessions[sid := r.session.value]
      && r.store.trace == st.trace
    ensures r.store.onSave == st.onSave && r.store.onTimeout == st.onTimeout
    ensures st.Valid() ==> r.store.Valid()
  {
    match ParseAuthorization(req.authorization)
    case None => Looked(st, None)
    case Some(sid) =>
      if sid !in st.sessions then Looked(st, None)
      else
        var s := st.sessions[sid].(lastAccessed := now);
        Looked(st.(sessions := st.sessions[sid := s]), Some(s))
  }

  /** Lookup does not check expiry here either: a record idle past the
      lifetime that the hourly sweep has not reached yet is found, stamped
      now, and kept by the next sweep. */
  lemma ExpiredHitRevived(st: Store, req: Request, now: Time, order: seq<Sid>)
    requires ParseAuthorization(req.authorization).Some?
    requires ParseAuthorization(req.authorization).value in st.sessions
    requires Expired(now, st.sessions[ParseAuthorization(req.authorization).value])
    requires Enumerates(order, st.sessions)
    ensures GetSession(st, req, now).session.Some?
    ensures Enumerates(order, GetSession(st, req, now).store.sessions)
    ensures ParseAuthorization(req.authorization).value in Gc(GetSession(st, req, now).store, now, order).sessions
  {
    var r := GetSession(st, req, now);
    var sid := ParseAuthorization(req.authorization).value;
    assert !Expired(now, r.store.sessions[sid]);
  }

  /** `Session.Close` as written panics on every record of this store:
      each has a nil manager. */
  lemma CloseAsWrittenPanics(st: Store, k: Sid, m: Managers.Manager)
    requires st.Valid() && k in st.sessions
    ensures Managers.CloseAsWritten(m, st.sessions[k]) == None
  {
  }

  /** `Session.Close` with the nil check the source lacks: a detached
      record is ended in the store that issued it, with no hook. */
  function Close(st: Store, s: Session): (r: Store)
    ensures SessID(s) !in r.sessions
    ensures forall k :: k != SessID(s) ==> (k in r.sessions <==> k in st.sessions)
    ensures forall k :: k in r.sessions ==> r.sessions[k] == st.sessions[k]
    ensures r.onSave == st.onSave && r.onTimeout == st.onTimeout && r.trace == st.trace
    ensures st.Valid() ==> r.Valid()
  {
    EndSession(st, SessID(s))
  }

  /** After a corrected close, no header naming the record finds it. */
  lemma CloseThenGet(st: Store, s: Session, req: Request, now: Time)
    requires ParseAuthorization(req.authorization) == Some(SessID(s))
    ensures GetSession(Close(st, s), req, now).session == None
  {
  }

  /** Unlike `Manager`, the `sid` query parameter is never consulted: a
      request naming a live id only in its query finds nothing here, and
      finds the record there. */
  lemma QueryIgnored(st: Store, m: Managers.Manager, sid: Sid, now: Time)
    requires sid != "" && sid in st.sessions && sid in m.sessions
    ensures GetSession(st, Request(sid, ""), now).session == None
    ensures Managers.GetSession(m, Request(sid, ""), now).session.Some?
  {
  }

  /** A freshly started record is found through the header a client builds
      from its id. */
  lemma StartThenGet(st: Store, user: UserId, now: Time, draws: seq<Draw>, later: Time)
    requires forall i :: 0 <= i < |draws| ==> draws[i].InRange()
    requires exists i :: 0 <= i < |draws| && FormatSid(draws[i]) !in st.sessions
    ensures var r := StartSession(st, user, now, draws);
      GetSession(r.store, Request("", AuthorizationFor(Scheme, r.session.id)), later).session
        == Some(r.session.(lastAccessed := later))
  {
    var r := StartSession(st, user, now, draws);
    HeaderRoundTrip(r.session.id);
  }

  /** `NewSession`: files a record under `sid` (replacing any there) whose
      payload is the JSON text `value`; a text that does not decode is
      logged and leaves the payload empty. */
  function NewSession(st: Store, sid: Sid, user: UserId, value: string, decode: TextDecoder, now: Time): (r: Started)
    ensures r.session == Session(sid, user, now, Restored(value, decode), st.onSave, Detached)
    ensures r.store.sessions.Keys == st.sessions.Keys + {sid}
    ensures r.store.sessions[sid] == r.session
    ensures forall k :: k in st.sessions && k != sid ==> r.store.sessions[k] == st.sessions[k]
    ensures r.store.onSave == st.onSave && r.store.onTimeout == st.onTimeout && r.store.trace == st.trace
    ensures st.Valid() ==> r.store.Valid()
  {
    var s := Session(sid, user, now, Restored(value, decode), st.onSave, Detached);
    Started(st.(sessions := st.sessions[sid := s]), s)
  }

  /** `NewSessionGob`: the same from gob bytes; the record gets no user
      (the empty string) and no JSON hook. */
  function NewSessionGob(st: Store, sid: Sid, blob: seq<Byte>, decode: Managers.Decoder, now: Time): (r: Started)
    ensures r.session == Session(sid, "", now, Restored(blob, decode), false, Detached)
    ensures r.store.sessions.Keys == st.sessions.Keys + {sid}
    ensures r.store.sessions[sid] == r.session
    ensures forall k :: k in st.sessions && k != sid ==> r.store.sessions[k] == st.sessions[k]
    ensures r.store.onSave == st.onSave && r.store.onTimeout == st.onTimeout && r.store.trace == st.trace
    ensures st.Valid() ==> r.store.Valid()
  {
    var s := Session(sid, "", now, Restored(blob, decode), false, Detached);
    Started(st.(sessions := st.sessions[sid := s]), s)
  }

  /** A record of this store is detached, so a payload change fires at
      most its JSON hook, never a gob save. */
  lemma DetachedSavesJsonOnly(st: Store, k: Sid, key: string, value: Value, c: Codecs)
    requires st.Valid() && k in st.sessions
    ensures var e := PutData(st.sessions[k], key, value, c).events;
      |e| <= 1 && forall i :: 0 <= i < |e| ==> e[i].SavedJson?
  {
  }
}

=== FILE: manager.dfy ===
/** The session manager of manager.go. Each operation is one atomic step
    (the source holds `mLock` for its whole body) from one manager state to
    the next; hook calls are appended to `trace`. A hook's error return
    only reaches the log, so no step depends on it. */
module Managers {
  import opened Wrappers
  import opened ByteStrings
  import opened SessionIds
  import opened Sessions
  import opened Registry
  import opened Auth

  type Int64 = x: int | -0x8000_0000_0000_0000 <= x < 0x8000_0000_0000_0000

  const NanosPerSecond: int := 1_000_000_000

  /** Two's-complement wrap-around to 64 bits. */
  function Wrap64(x: int): Int64 {
    (x + 0x8000_0000_0000_0000) % 0x1_0000_0000_0000_0000 - 0x8000_0000_0000_0000
  }

  /** `ManagerOption`: the lifetime in seconds, the single-login switch and,
      for each hook, whether it is set. */
  datatype Options = Options(
    maxLifeTime: Int64,
    singled: bool,
    onCreate: bool,
    onUpdate: bool,
    onSave: bool,
    onDelete: bool)

  /** The options `NewManager` hands to the caller's modifier. */
  const Defaults: Options := Options(3600, true, false, false, false, false)

  datatype Manager = Manager(options: Options, sessions: Table, trace: seq<Event>) {
    /** Every record is filed under its own id, points back to this
        manager, and has no JSON hook of its own. */
    predicate Valid() {
      && KeysMatch(sessions)
      && forall k :: k in sessions ==>
           sessions[k].owner == Managed(options.onSave) && !sessions[k].jsonHook
    }
  }

  datatype Started = Started(mgr: Manager, session: Session)

  datatype Looked = Looked(mgr: Manager, session: Option<Session>)

  /** A deserialiser that may fail, like a gob decoder. */
  type Decoder = seq<Byte> -> Option<Payload>

  /** `NewManager`: the modifier sees the defaults; the table starts empty. */
  function NewManager(adjust: Options -> Options): (m: Manager)
    ensures m.options == adjust(Options(3600, true, false, false, false, false))
    ensures m.sessions == map[] && m.trace == []
    ensures m.Valid()
  {
    Manager(adjust(Defaults), map[], [])
  }

  /** `time.Duration(MaxLifeTime) * time.Second`, an int64 product. */
  function Lifetime(o: Options): Int64 {
    Wrap64(o.maxLifeTime * NanosPerSecond)
  }

  /** `mLastTimeAccessed.Add(lifetime)`. */
  function Deadline(o: Options, s: Session): Time {
    s.lastAccessed + Lifetime(o)
  }

  /** `timeout.Before(now)`: strictly past the deadline. */
  predicate Expired(o: Options, now: Time, s: Session) {
    Deadline(o, s) < now
  }

  function ExpiredAt(o: Options, now: Time): Session -> bool {
    s => Expired(o, now, s)
  }

  /** For any lifetime up to 9223372036 seconds (about 292 years) the
      product does not wrap, so the deadline is the configured one. */
  lemma LifetimeExact(o: Options)
    requires 0 <= o.maxLifeTime <= 9_223_372_036
    ensures Lifetime(o) == o.maxLifeTime * NanosPerSecond
  {
    var x := o.maxLifeTime * NanosPerSecond;
    assert 0 <= x + 0x8000_0000_0000_0000 < 0x1_0000_0000_0000_0000;
  }

  /** One second more and the product wraps negative: a record touched at
      `now` already counts as expired at the next sweep. */
  lemma LifetimeOverflow(o: Options, now: Time, s: Session)
    requires o.maxLifeTime == 9_223_372_037
    requires s.lastAccessed == now
    ensures Lifetime(o) < 0
    ensures ExpiredAt(o, now + 1)(s)
  {
    assert o.maxLifeTime * NanosPerSecond + 0x8000_0000_0000_0000
      == 0x1_0000_0000_0000_0000 + 145_224_192;
  }

  function TimeoutEvent(k: Sid): Event {
    Deleted(k, FlagTimeout)
  }

  /** `gc`, one run of the sweep at time `now`; `order` is the order the
      map range visits the keys in. */
  function Gc(m: Manager, now: Time, order: seq<Sid>): (r: Manager)
    requires Enumerates(order, m.sessions)
    ensures r.options == m.options
    ensures forall k :: k in r.sessions ==>
      k in m.sessions && r.sessions[k] == m.sessions[k] && !Expired(m.options, now, m.sessions[k])
    ensures forall k :: k in m.sessions && !Expired(m.options, now, m.sessions[k]) ==> k in r.sessions
    ensures |m.trace| <= |r.trace| && r.trace[..|m.trace|] == m.trace
    ensures forall i :: |m.trace| <= i < |r.trace| ==> r.trace[i].Deleted? && r.trace[i].flag == FlagTimeout
    ensures !m.options.onDelete ==> r.trace == m.trace
    ensures m.Valid() ==> r.Valid()
    ensures AtMostOnePerUser(m.sessions) ==> AtMostOnePerUser(r.sessions)
  {
    var swept := Sweep(m.sessions, order, ExpiredAt(m.options, now));
    var events := if m.options.onDelete then Announce(swept.evicted, TimeoutEvent) else [];
    m.(sessions := swept.kept, trace := m.trace + events)
  }

  /** Every evicted id gets exactly one `OnDelete(sid, FlagTimeout)`, and
      no other id gets one. */
  lemma GcDeletesEachOnce(m: Manager, now: Time, order: seq<Sid>, k: Sid)
    requires Enumerates(order, m.sessions)
    requires m.options.onDelete
    ensures Count(Gc(m, now, order).trace[|m.trace|..], Deleted(k, FlagTimeout))
         == if k in m.sessions && Expired(m.options, now, m.sessions[k]) then 1 else 0
  {
    var swept := Sweep(m.sessions, order, ExpiredAt(m.options, now));
    var r := Gc(m, now, order);
    assert r.trace[|m.trace|..] == Announce(swept.evicted, TimeoutEvent);
    AnnounceOnce(swept.evicted, TimeoutEvent, k);
    assert TimeoutEvent(k) == Deleted(k, FlagTimeout);
  }

  /** A second sweep at the same time finds nothing more to evict. */
  lemma GcIdempotent(m: Manager, now: Time, order: seq<Sid>, order2: seq<Sid>)
    requires Enumerates(order, m.sessions)
    requires Enumerates(order2, Gc(m, now, order).sessions)
    ensures Gc(Gc(m, now, order), now, order2) == Gc(m, now, order)
  {
    var r := Gc(m, now, order);
    assert forall k :: k in r.sessions ==> !ExpiredAt(r.options, now)(r.sessions[k]);
    SweepNothingExpired(r.sessions, order2, ExpiredAt(r.options, now));
    assert r.trace + [] == r.trace;
  }

  /** `EndSession`: the hook runs unguarded, so it must be set; the id is
      deleted whether or not it was live and whatever the hook returns. */
  function EndSession(m: Manager, sid: Sid): (r: Manager)
    requires m.options.onDelete
    ensures sid !in r.sessions
    ensures forall k :: k != sid ==> (k in r.sessions <==> k in m.sessions)
    ensures forall k :: k in r.sessions ==> r.sessions[k] == m.sessions[k]
    ensures r.trace == m.trace + [Deleted(sid, FlagClose)]
    ensures r.options == m.options
    ensures m.Valid() ==> r.Valid()
    ensures AtMostOnePerUser(m.sessions) ==> AtMostOnePerUser(r.sessions)
  {
    m.(sessions := m.sessions - {sid}, trace := m.trace + [Deleted(sid, FlagClose)])
  }

  /** `eraseSession`: deletes the first record of `user` the map range
      meets, if any, with `OnDelete(sid, FlagErase)`. The hook is called
      unguarded, so it must be set when there is a record to delete. */
  function EraseSession(m: Manager, user: UserId, order: seq<Sid>): (r: Manager)
    requires Enumerates(order, m.sessions)
    requires HasSessionOf(m.sessions, user) ==> m.options.onDelete
    ensures r.options == m.options
    ensures forall k :: k in r.sessions ==> k in m.sessions && r.sessions[k] == m.sessions[k]
    ensures !HasSessionOf(m.sessions, user) ==> r == m
    ensures HasSessionOf(m.sessions, user) ==>
      exists k :: k in m.sessions && m.sessions[k].user == user
        && r.sessions == m.sessions - {k}
        && r.trace == m.trace + [Deleted(k, FlagErase)]
    ensures AtMostOnePerUser(m.sessions) ==>
      !HasSessionOf(r.sessions, user) && AtMostOnePerUser(r.sessions)
    ensures m.Valid() ==> r.Valid()
  {
    match FirstOwnedBy(m.sessions, order, user)
    case None => m
    case Some(k) =>
      assert AtMostOnePerUser(m.sessions) ==> !HasSessionOf(m.sessions - {k}, user) by {
        if AtMostOnePerUser(m.sessions) {
          EraseOnlyRecord(m.sessions, k, user);
        }
      }
      m.(sessions := m.sessions - {k}, trace := m.trace + [Deleted(k, FlagErase)])
  }

  /** The `OnCreate` call that follows an insert, when the hook is set. */
  function Creation(o: Options, s: Session): seq<Event> {
    if o.onCreate then [Created(s.id, s.user)] else []
  }

  /** The second half of `StartSession`: draw a fresh id, insert a record
      stamped `now` with an empty payload, then call `OnCreate`. */
  function Admit(base: Manager, user: UserId, now: Time, draws: seq<Draw>): (r: Started)
    requires forall i :: 0 <= i < |draws| ==> draws[i].InRange()
    requires exists i :: 0 <= i < |draws| && FormatSid(draws[i]) !in base.sessions
    ensures r.session.id !in base.sessions
    ensures r.session == Session(r.session.id, user, now, map[], false, Managed(base.options.onSave))
    ensures r.session.id != "" && IsByteString(r.session.id)
    ensures ParseSid(r.session.id).Some? && ParseSid(r.session.id).value.InRange()
    ensures r.mgr.sessions == base.sessions[r.session.id := r.session]
    ensures r.mgr.sessions.Keys == base.sessions.Keys + {r.session.id}
    ensures r.mgr.options == base.options
    ensures r.mgr.trace == base.trace + Creation(base.options, r.session)
    ensures base.Valid() ==> r.mgr.Valid()
  {
    assert exists i :: 0 <= i < |draws| && FormatSid(draws[i]) !in base.sessions.Keys;
    var sid := QueryEscape(GenerateSessionID(base.sessions.Keys, draws));
    var s := Session(sid, user, now, map[], false, Managed(base.options.onSave));
    assert base.sessions[sid := s].Keys == base.sessions.Keys + {sid};
    Started(base.(sessions := base.sessions[sid := s], trace := base.trace + Creation(base.options, s)), s)
  }

  /** The preconditions of `StartSession`. */
  predicate CanStart(m: Manager, user: UserId, order: seq<Sid>, draws: seq<Draw>) {
    && Enumerates(order, m.sessions)
    && (forall i :: 0 <= i < |draws| ==> draws[i].InRange())
    && (exists i :: 0 <= i < |draws| && FormatSid(draws[i]) !in m.sessions)
    && (m.options.singled && HasSessionOf(m.sessions, user) ==> m.options.onDelete)
  }

  /** `StartSession`: with single login on, first erase one earlier record
      of the user; then insert a fresh record. `draws` are the random
      numbers `generateSessionID` draws. */
  function StartSession(m: Manager, user: UserId, now: Time, order: seq<Sid>, draws: seq<Draw>): (r: Started)
    requires CanStart(m, user, order, draws)
    ensures r.session.id in r.mgr.sessions && r.mgr.sessions[r.session.id] == r.session
    ensures r.session.user == user && r.session.lastAccessed == now && r.session.data == map[]
    ensures r.session.id != "" && IsByteString(r.session.id)
    ensures ParseSid(r.session.id).Some? && ParseSid(r.session.id).value.InRange()
    ensures r.mgr.options == m.options
    ensures forall k :: k in r.mgr.sessions && k != r.session.id ==>
      k in m.sessions && r.mgr.sessions[k] == m.sessions[k]
    ensures !m.options.singled ==>
      && r.session.id !in m.sessions
      && r.mgr.sessions.Keys == m.sessions.Keys + {r.session.id}
      && r.mgr.trace == m.trace + Creation(m.options, r.session)
    ensures m.Valid() ==> r.mgr.Valid()
  {
    var base := if m.options.singled then EraseSession(m, user, order) else m;
    assert exists i :: 0 <= i < |draws| && FormatSid(draws[i]) !in base.sessions by {
      var i :| 0 <= i < |draws| && FormatSid(draws[i]) !in m.sessions;
      assert FormatSid(draws[i]) !in base.sessions;
    }
    assert m.Valid() ==> base.Valid();
    Admit(base, user, now, draws)
  }

  /** With single login on, `StartSession` is `Admit` after `EraseSession`. */
  lemma StartIsEraseThenAdmit(m: Manager, user: UserId, now: Time, order: seq<Sid>, draws: seq<Draw>)
    requires CanStart(m, user, order, draws) && m.options.singled
    ensures var base := EraseSession(m, user, order);
      && (exists i :: 0 <= i < |draws| && FormatSid(draws[i]) !in base.sessions)
      && StartSession(m, user, now, order, draws) == Admit(base, user, now, draws)
  {
  }

  /** With single login on, starting a session erases (at most) one earlier
      record of the user with `FlagErase` before announcing the new one, and
      keeps every other user's records. */
  lemma StartSessionKeepsOthers(m: Manager, user: UserId, now: Time, order: seq<Sid>, draws: seq<Draw>)
    requires CanStart(m, user, order, draws) && m.options.singled
    ensures var r := StartSession(m, user, now, order, draws);
      && r.mgr.trace == EraseSession(m, user, order).trace + Creation(m.options, r.session)
      && (forall k :: k in m.sessions && m.sessions[k].user != user ==>
            k in r.mgr.sessions && r.mgr.sessions[k] == m.sessions[k])
  {
    var base := EraseSession(m, user, order);
    StartIsEraseThenAdmit(m, user, now, order, draws);
    forall k | k in m.sessions && m.sessions[k].user != user
      ensures k in base.sessions && base.sessions[k] == m.sessions[k]
    {
      if HasSessionOf(m.sessions, user) {
        var j :| j in m.sessions && m.sessions[j].user == user
          && base.sessions == m.sessions - {j}
          && base.trace == m.trace + [Deleted(j, FlagErase)];
        assert k != j;
      }
    }
  }

  /** With single login on, starting a session keeps the
      one-record-per-user invariant: afterwards the new record is the
      user's only one. */
  lemma StartSessionSingleLogin(m: Manager, user: UserId, now: Time, order: seq<Sid>, draws: seq<Draw>)
    requires CanStart(m, user, order, draws) && m.options.singled
    requires AtMostOnePerUser(m.sessions)
    ensures var r := StartSession(m, user, now, order, draws);
      && AtMostOnePerUser(r.mgr.sessions)
      && OnlyRecordOf(r.mgr.sessions, user, r.session.id)
  {
    var base := EraseSession(m, user, order);
    StartIsEraseThenAdmit(m, user, now, order, draws);
    var r := Admit(base, user, now, draws);
    InsertOnlyRecord(base.sessions, r.session.id, r.session);
  }

  /** `GetSession`: find the id (query first, then header), and on a hit
      stamp the record with `now` and call `OnUpdate`. Nothing changes on
      a miss or on a request without a usable id. */
  function GetSession(m: Manager, req: Request, now: Time): (r: Looked)
    ensures r.mgr.options == m.options
    ensures r.session.None? <==> ExtractSid(req).None? || ExtractSid(req).value !in m.sessions
    ensures r.session.None? ==> r.mgr == m
    ensures r.session.Some? ==>
      var sid := ExtractSid(req).value;
      && r.session.value == m.sessions[sid].(lastAccessed := now)
      && r.mgr.sessions.Keys == m.sessions.Keys
      && r.mgr.sessions[sid] == r.session.value
      && (forall k :: k in m.sessions && k != sid ==> r.mgr.sessions[k] == m.sessions[k])
      && r.mgr.trace == m.trace + (if m.options.onUpdate then [Updated(m.sessions[sid].id, now)] else [])
    ensures m.Valid() ==> r.mgr.Valid()
    ensures AtMostOnePerUser(m.sessions) ==> AtMostOnePerUser(r.mgr.sessions)
  {
    match ExtractSid(req)
    case None => Looked(m, None)
    case Some(sid) =>
      if sid !in m.sessions then Looked(m, None)
      else
        var s := m.sessions[sid].(lastAccessed := now);
        var updated := if m.options.onUpdate then [Updated(s.id, now)] else [];
        Looked(m.(sessions := m.sessions[sid := s], trace := m.trace + updated), Some(s))
  }

  /** `AddSession`: put a persisted record back under `sid`, replacing any
      record there and without the single-login check. A blob that does
      not decode leaves the payload empty; the call never fails. */
  function AddSession(m: Manager, sid: Sid, blob: seq<Byte>, user: UserId, lastAccessed: Time, decode: Decoder): (r: Started)
    ensures r.mgr.sessions.Keys == m.sessions.Keys + {sid}
    ensures r.mgr.sessions[sid] == r.session
    ensures r.session.id == sid && r.session.user == user && r.session.lastAccessed == lastAccessed
    ensures r.session.owner == Managed(m.options.onSave) && !r.session.jsonHook
    ensures r.session.data == Restored(blob, decode)
    ensures forall k :: k in m.sessions && k != sid ==> r.mgr.sessions[k] == m.sessions[k]
    ensures r.mgr.options == m.options && r.mgr.trace == m.trace
    ensures m.Valid() ==> r.mgr.Valid()
  {
    var s := Session(sid, user, lastAccessed, Restored(blob, decode), false, Managed(m.options.onSave));
    Started(m.(sessions := m.sessions[sid := s]), s)
  }

  /** `Session.Close`: ends the record's own id through its manager. A
      detached record has no manager to call. */
  function Close(m: Manager, s: Session): (r: Manager)
    requires s.owner.Managed? && m.options.onDelete
    ensures SessID(s) !in r.sessions
    ensures forall k :: k != SessID(s) ==> (k in r.sessions <==> k in m.sessions)
    ensures forall k :: k in r.sessions ==> r.sessions[k] == m.sessions[k]
    ensures r.trace == m.trace + [Deleted(SessID(s), FlagClose)]
    ensures r.options == m.options
    ensures m.Valid() ==> r.Valid()
  {
    EndSession(m, SessID(s))
  }

  /** `Session.Close` as written, on any record: a detached record's nil
      manager reaches `EndSession`, whose `mLock.Lock()` dereferences it
      and panics; `None` stands for that panic. */
  function CloseAsWritten(m: Manager, s: Session): (r: Option<Manager>)
    requires s.owner.Managed? ==> m.options.onDelete
    ensures r.None? <==> s.owner == Detached
    ensures r.Some? ==>
      SessID(s) !in r.value.sessions && r.value.trace == m.trace + [Deleted(SessID(s), FlagClose)]
  {
    if s.owner == Detached then None else Some(EndSession(m, SessID(s)))
  }

  /** Restoring a record bypasses single login: a second record of a user
      who already has one can be added. */
  lemma AddSessionBypassesSingleLogin(m: Manager, k: Sid, sid: Sid, blob: seq<Byte>, t: Time, decode: Decoder)
    requires k in m.sessions && sid != k
    ensures !AtMostOnePerUser(AddSession(m, sid, blob, m.sessions[k].user, t, decode).mgr.sessions)
  {
    var r := AddSession(m, sid, blob, m.sessions[k].user, t, decode);
    assert r.mgr.sessions[k] == m.sessions[k];
    assert r.mgr.sessions[sid].user == r.mgr.sessions[k].user;
  }

  /** A request naming a live id finds that record, stamped `now`. */
  lemma GetLive(m: Manager, req: Request, sid: Sid, now: Time)
    requires ExtractSid(req) == Some(sid) && sid in m.sessions
    ensures GetSession(m, req, now).session == Some(m.sessions[sid].(lastAccessed := now))
  {
  }

  /** A freshly started session is found by its id, in the query or in the
      header, and keeps its user. */
  lemma StartThenGet(m: Manager, user: UserId, now: Time, order: seq<Sid>, draws: seq<Draw>, later: Time)
    requires CanStart(m, user, order, draws)
    ensures var r := StartSession(m, user, now, order, draws);
      && GetSession(r.mgr, Request(r.session.id, ""), later).session
           == Some(r.session.(lastAccessed := later))
      && GetSession(r.mgr, Request("", AuthorizationFor(Scheme, r.session.id)), later).session
           == Some(r.session.(lastAccessed := later))
  {
    var r := StartSession(m, user, now, order, draws);
    var id := r.session.id;
    GetLive(r.mgr, Request(id, ""), id, later);
    HeaderFindsLive(r.mgr, id, later);
  }

  /** After `EndSession(sid)` no request naming `sid` finds a record. */
  lemma EndThenGet(m: Manager, sid: Sid, req: Request, now: Time)
    requires m.options.onDelete
    requires ExtractSid(req) == Some(sid)
    ensures GetSession(EndSession(m, sid), req, now).session == None
  {
  }

  /** Logging in again as a user who holds record `x`, with single login
      on: `x` is erased with `FlagErase` before the new record is announced,
      and a request for `x` finds nothing afterwards, unless the new record
      happens to be drawn with the freed id `x` itself. */
  lemma ReloginEvicts(m: Manager, user: UserId, x: Sid, now: Time, order: seq<Sid>, draws: seq<Draw>, later: Time)
    requires m.options.singled && m.options.onDelete
    requires AtMostOnePerUser(m.sessions)
    requires x in m.sessions && m.sessions[x].user == user
    requires CanStart(m, user, order, draws)
    ensures var r := StartSession(m, user, now, order, draws);
      && r.mgr.trace == m.trace + [Deleted(x, FlagErase)] + Creation(m.options, r.session)
      && (x in r.mgr.sessions ==> x == r.session.id)
      && GetSession(r.mgr, Request(x, ""), later).session
           == (if x == r.session.id then Some(r.session.(lastAccessed := later)) else None)
      && GetSession(r.mgr, Request(r.session.id, ""), later).session == Some(r.session.(lastAccessed := later))
  {
    var erased := EraseSession(m, user, order);
    assert HasSessionOf(m.sessions, user);
    var k :| k in m.sessions && m.sessions[k].user == user
      && erased.sessions == m.sessions - {k}
      && erased.trace == m.trace + [Deleted(k, FlagErase)];
    assert k == x;
    StartIsEraseThenAdmit(m, user, now, order, draws);
    var r := Admit(erased, user, now, draws);
    GetLive(r.mgr, Request(r.session.id, ""), r.session.id, later);
  }

  /** The erased id is free again, so the new record can be issued under
      it: a user holding `"0.0.0"` who logs in again and draws `(0, 0, 0)`
      gets `"0.0.0"` back, although the draw list also holds an id that was
      free beforehand. */
  lemma ErasedIdReissued(s: Session)
    requires s.id == "0.0.0"
    ensures var m := Manager(Options(3600, true, false, false, false, true), map["0.0.0" := s], []);
      && CanStart(m, s.user, ["0.0.0"], [Draw(0, 0, 0), Draw(1, 1, 1)])
      && var r := StartSession(m, s.user, 0, ["0.0.0"], [Draw(0, 0, 0), Draw(1, 1, 1)]);
      r.session.id == "0.0.0" && r.mgr.trace == [Deleted("0.0.0", FlagErase)]
  {
    var m := Manager(Options(3600, true, false, false, false, true), map["0.0.0" := s], []);
    var draws := [Draw(0, 0, 0), Draw(1, 1, 1)];
    assert FormatSid(draws[0]) == "0.0.0";
    assert FormatSid(draws[1]) == "1.1.1";
    assert FormatSid(draws[1]) !in m.sessions;
    assert FirstOwnedBy(m.sessions, ["0.0.0"], s.user) == Some("0.0.0");
    var base := EraseSession(m, s.user, ["0.0.0"]);
    assert base.sessions == map[] && base.trace == [Deleted("0.0.0", FlagErase)];
    assert FirstFreshDraw(base.sessions.Keys, draws) == 0;
    QueryEscapeFormatted(draws[0]);
    StartIsEraseThenAdmit(m, s.user, 0, ["0.0.0"], draws);
  }

  /** Lookup does not check expiry: a record past its deadline that no
      sweep has removed yet is found and stamped now, and so survives the
      next sweep at the same time. */
  lemma ExpiredHitRevived(m: Manager, req: Request, now: Time, order: seq<Sid>)
    requires 0 <= m.options.maxLifeTime <= 9_223_372_036
    requires ExtractSid(req).Some? && ExtractSid(req).value in m.sessions
    requires Expired(m.options, now, m.sessions[ExtractSid(req).value])
    requires Enumerates(order, m.sessions)
    ensures GetSession(m, req, now).session.Some?
    ensures Enumerates(order, GetSession(m, req, now).mgr.sessions)
    ensures ExtractSid(req).value in Gc(GetSession(m, req, now).mgr, now, order).sessions
  {
    var r := GetSession(m, req, now);
    var sid := ExtractSid(req).value;
    LifetimeExact(m.options);
    assert !Expired(m.options, now, r.mgr.sessions[sid]);
  }

  /** A record idle for longer than a lifetime that does not wrap is gone
      after the next sweep, and no request finds it any more. */
  lemma IdleSessionGone(m: Manager, x: Sid, now: Time, order: seq<Sid>, req: Request)
    requires 0 <= m.options.maxLifeTime <= 9_223_372_036
    requires x in m.sessions
    requires m.sessions[x].lastAccessed + m.options.maxLifeTime * NanosPerSecond < now
    requires Enumerates(order, m.sessions)
    requires ExtractSid(req) == Some(x)
    ensures x !in Gc(m, now, order).sessions
    ensures GetSession(Gc(m, now, order), req, now).session == None
  {
    LifetimeExact(m.options);
    assert Expired(m.options, now, m.sessions[x]);
  }

  /** A request carrying the header a client builds from a live id finds
      that record. */
  lemma HeaderFindsLive(m: Manager, sid: Sid, now: Time)
    requires sid in m.sessions && IsByteString(sid)
    ensures GetSession(m, Request("", AuthorizationFor(Scheme, sid)), now).session
         == Some(m.sessions[sid].(lastAccessed := now))
  {
    HeaderRoundTrip(sid);
    GetLive(m, Request("", AuthorizationFor(Scheme, sid)), sid, now);
  }

  /** The `Updated` event of a hit names the id that was looked up: in a
      valid manager every record carries the key it is filed under. */
  lemma UpdateNamesLookedUpId(m: Manager, req: Request, now: Time)
    requires m.Valid() && m.options.onUpdate
    requires ExtractSid(req).Some? && ExtractSid(req).value in m.sessions
    ensures GetSession(m, req, now).mgr.trace == m.trace + [Updated(ExtractSid(req).value, now)]
  {
  }

  /** A payload change on a record of a valid manager fires no JSON save,
      and exactly one gob save, of the record's own id and its whole new
      payload, when `OnSave` is set and the payload serialises. */
  lemma ManagedSavesGobOnly(m: Manager, k: Sid, key: string, value: Value, c: Codecs)
    requires m.Valid() && k in m.sessions
    ensures var data := m.sessions[k].data[key := value];
      PutData(m.sessions[k], key, value, c).events
        == if m.options.onSave && c.gob(data).Some? then [Saved(k, c.gob(data).value)] else []
    ensures var data := m.sessions[k].data - {key};
      RemoveData(m.sessions[k], key, c).events
        == if m.options.onSave && c.gob(data).Some? then [Saved(k, c.gob(data).value)] else []
  {
  }
}

=== FILE: registry.dfy ===
/** The live-session table and the map walks both managers share: the
    first-match scan of `eraseSession`/`EraseSession` and the eviction
    sweep of `gc`. Go ranges over a map in an unspecified order; the order
    is an explicit parameter here, a listing of the keys. */
module Registry {
  import opened Wrappers
  import opened SessionIds
  import opened Sessions

  type Table = map<Sid, Session>

  /** `order` lists every key of `t` exactly once. */
  predicate Enumerates(order: seq<Sid>, t: Table) {
    && (forall i :: 0 <= i < |order| ==> order[i] in t)
    && (forall k :: k in t ==> k in order)
    && NoDuplicates(order)
  }

  predicate NoDuplicates<T(==)>(s: seq<T>) {
    forall i, j :: 0 <= i < j < |s| ==> s[i] != s[j]
  }

  /** Every record is filed under its own id. */
  predicate KeysMatch(t: Table) {
    forall k :: k in t ==> t[k].id == k
  }

  predicate HasSessionOf(t: Table, u: UserId) {
    exists k :: k in t && t[k].user == u
  }

  /** The single-login invariant: no user owns two live records. */
  predicate AtMostOnePerUser(t: Table) {
    forall a, b :: a in t && b in t && t[a].user == t[b].user ==> a == b
  }

  /** The position in `order` of the first live record owned by `u`. */
  function FirstOwnedIndex(t: Table, order: seq<Sid>, u: UserId): (r: Option<nat>)
    ensures r.Some? ==> r.value < |order| && order[r.value] in t && t[order[r.value]].user == u
    ensures r.Some? ==> forall j :: 0 <= j < r.value ==> !(order[j] in t && t[order[j]].user == u)
    ensures r.None? ==> forall j :: 0 <= j < |order| ==> !(order[j] in t && t[order[j]].user == u)
  {
    if |order| == 0 then None
    else if order[0] in t && t[order[0]].user == u then Some(0)
    else match FirstOwnedIndex(t, order[1..], u)
      case None => None
      case Some(i) => Some(i + 1)
  }

  /** The record the scan of `eraseSession` stops at, if any. */
  function FirstOwnedBy(t: Table, order: seq<Sid>, u: UserId): (r: Option<Sid>)
    ensures r.Some? ==> r.value in t && t[r.value].user == u
    ensures Enumerates(order, t) ==> (r.None? <==> !HasSessionOf(t, u))
  {
    match FirstOwnedIndex(t, order, u)
    case None => None
    case Some(i) => Some(order[i])
  }

  /** Removing the only record of `u` from a single-login table leaves `u`
      without records and keeps the invariant. */
  lemma EraseOnlyRecord(t: Table, k: Sid, u: UserId)
    requires AtMostOnePerUser(t)
    requires k in t && t[k].user == u
    ensures !HasSessionOf(t - {k}, u)
    ensures AtMostOnePerUser(t - {k})
  {
  }

  /** `k` is the only record `u` holds in `t`. */
  predicate OnlyRecordOf(t: Table, u: UserId, k: Sid) {
    forall j :: j in t && t[j].user == u ==> j == k
  }

  /** Filing a record of a user who holds none keeps the single-login
      invariant, and the new record is that user's only one. */
  lemma InsertOnlyRecord(t: Table, k: Sid, s: Session)
    requires AtMostOnePerUser(t)
    requires !HasSessionOf(t, s.user)
    ensures AtMostOnePerUser(t[k := s])
    ensures OnlyRecordOf(t[k := s], s.user, k)
  {
    var u := t[k := s];
    forall a, b | a in u && b in u && u[a].user == u[b].user
      ensures a == b
    {
      if a != k && b != k {
        assert a in t && b in t;
      }
    }
  }

  datatype Swept = Swept(kept: Table, evicted: seq<Sid>)

  /** The body of `gc`: walks `order`, deleting every record `expired`
      selects; `evicted` lists the deletions in the order they happen. */
  function Sweep(t: Table, order: seq<Sid>, expired: Session -> bool): (r: Swept)
    ensures forall k :: k in r.kept <==> k in t && !(k in order && expired(t[k]))
    ensures forall k :: k in r.kept ==> r.kept[k] == t[k]
    ensures forall k :: k in r.evicted <==> k in t && k in order && expired(t[k])
    ensures NoDuplicates(r.evicted)
    decreases |order|
  {
    if |order| == 0 then Swept(t, [])
    else
      var k := order[0];
      assert forall x :: x in order <==> x == k || x in order[1..];
      if k in t && expired(t[k]) then
        var rest := Sweep(t - {k}, order[1..], expired);
        Swept(rest.kept, [k] + rest.evicted)
      else
        Sweep(t, order[1..], expired)
  }

  /** A sweep over records none of which is expired changes nothing. */
  lemma {:induction false} SweepNothingExpired(t: Table, order: seq<Sid>, expired: Session -> bool)
    requires forall k :: k in t ==> !expired(t[k])
    ensures Sweep(t, order, expired) == Swept(t, [])
    decreases |order|
  {
    if |order| > 0 {
      SweepNothingExpired(t, order[1..], expired);
    }
  }

  /** The reference definition of what a sweep keeps. */
  function Unexpired(t: Table, expired: Session -> bool): Table {
    map k | k in t && !expired(t[k]) :: t[k]
  }

  /** A sweep over a full listing of the keys keeps exactly the unexpired
      records, whatever the listing's order. */
  lemma SweepKeepsUnexpired(t: Table, order: seq<Sid>, expired: Session -> bool)
    requires Enumerates(order, t)
    ensures Sweep(t, order, expired).kept == Unexpired(t, expired)
  {
  }

  /** The events announcing each evicted id, in eviction order. */
  function Announce(ids: seq<Sid>, event: Sid -> Event): (r: seq<Event>)
    ensures |r| == |ids|
    ensures forall i :: 0 <= i < |ids| ==> r[i] == event(ids[i])
  {
    if |ids| == 0 then [] else [event(ids[0])] + Announce(ids[1..], event)
  }

  function Count<T(==)>(s: seq<T>, x: T): nat {
    if |s| == 0 then 0 else (if s[0] == x then 1 else 0) + Count(s[1..], x)
  }

  /** With distinct ids and an injective event constructor, each id is
      announced exactly once, and nothing else is announced. */
  lemma {:induction false} AnnounceOnce(ids: seq<Sid>, event: Sid -> Event, k: Sid)
    requires NoDuplicates(ids)
    requires forall a, b :: event(a) == event(b) ==> a == b
    ensures Count(Announce(ids, event), event(k)) == if k in ids then 1 else 0
    decreases |ids|
  {
    if |ids| > 0 {
      var tail := ids[1..];
      assert NoDuplicates(tail) by {
        forall i, j | 0 <= i < j < |tail| ensures tail[i] != tail[j] {
          assert tail[i] == ids[i + 1] && tail[j] == ids[j + 1];
        }
      }
      AnnounceOnce(tail, event, k);
      assert Announce(ids, event)[1..] == Announce(tail, event);
      assert k in ids <==> k == ids[0] || k in tail;
      if k == ids[0] {
        assert k !in tail by {
          forall i | 0 <= i < |tail| ensures tail[i] != k {
            assert tail[i] == ids[i + 1];
          }
        }
      }
    }
  }
}

=== FILE: session.dfy ===
/** One session record and its payload operations (session.go). A Go
    `*Session` is shared between the manager's map and its callers; here a
    record is a value, and every payload operation returns the updated
    record together with the hook events it fired. */
module Sessions {
  import opened Wrappers
  import opened ByteStrings
  import opened SessionIds

  type UserId = string

  /** Nanoseconds since the Unix epoch. */
  type Time = int

  /** The payload values (`interface{}` in the source); `Nil` is what
      `GetData` returns for a key that is not there. */
  datatype Value = Nil | Bool(b: bool) | Int(i: int) | Str(s: string)

  type Payload = map<string, Value>

  /** The `mManager` back pointer: `Detached` when it is nil, otherwise
      whether that manager has an `OnSave` hook. Manager options are fixed
      once the manager is built, so the record keeps the flag itself. */
  datatype Owner = Detached | Managed(onSave: bool)

  /** `jsonHook` says whether the record's own `mOnSave` hook is set. */
  datatype Session = Session(
    id: Sid,
    user: UserId,
    lastAccessed: Time,
    data: Payload,
    jsonHook: bool,
    owner: Owner)

  /** Why a session was deleted; `Flag` in manager.go:22-31. */
  datatype Flag = FlagClose | FlagErase | FlagTimeout

  /** One hook call, in the order the source makes them. */
  datatype Event =
    | Created(sid: Sid, user: UserId)        // ManagerOption.OnCreate
    | Updated(sid: Sid, at: Time)            // ManagerOption.OnUpdate
    | Saved(sid: Sid, blob: seq<Byte>)       // ManagerOption.OnSave, gob bytes
    | Deleted(sid: Sid, flag: Flag)          // ManagerOption.OnDelete
    | SavedJson(sid: Sid, text: string)      // Session.mOnSave, JSON text
    | TimedOut(sid: Sid)                     // sessionmgr.OnTimeout

  /** A serialiser that may fail, like `json.Marshal` or a gob encoder. */
  type Encoder = Payload -> Option<seq<Byte>>

  datatype Codecs = Codecs(json: Encoder, gob: Encoder)

  datatype Step = Step(session: Session, events: seq<Event>)

  /** `SessID`: the id the record was filed under. */
  function SessID(s: Session): (id: Sid)
    ensures id == s.id
  {
    s.id
  }

  /** `UserID`: the user the record was created for. */
  function UserID(s: Session): (u: UserId)
    ensures u == s.user
  {
    s.user
  }

  /** `HasData`: whether the payload holds the key, whatever its value,
      `Nil` included. */
  function HasData(s: Session, key: string): (present: bool)
    ensures present <==> key in s.data
  {
    key in s.data
  }

  /** `GetData`: the stored value, or `Nil` for a key that is not there. */
  function GetData(s: Session, key: string): (v: Value)
    ensures !HasData(s, key) ==> v == Nil
    ensures HasData(s, key) ==> v == s.data[key]
  {
    if key in s.data then s.data[key] else Nil
  }

  /** The record fields payload operations never touch. */
  predicate SameRecord(s: Session, t: Session) {
    && SessID(t) == SessID(s)
    && UserID(t) == UserID(s)
    && t.lastAccessed == s.lastAccessed
    && t.jsonHook == s.jsonHook
    && t.owner == s.owner
  }

  predicate JsonFires(s: Session, c: Codecs) {
    s.jsonHook && c.json(s.data).Some?
  }

  predicate GobFires(s: Session, c: Codecs) {
    s.owner == Managed(true) && c.gob(s.data).Some?
  }

  /** `save` followed by `saveGob`: each hook runs only when it is set and
      the payload serialises, and receives the whole payload. */
  function Notify(s: Session, c: Codecs): (events: seq<Event>)
    ensures |events| == (if JsonFires(s, c) then 1 else 0) + (if GobFires(s, c) then 1 else 0)
    ensures JsonFires(s, c) ==> events[0] == SavedJson(s.id, FromBytes(c.json(s.data).value))
    ensures GobFires(s, c) ==> events[|events| - 1] == Saved(s.id, c.gob(s.data).value)
  {
    var json := if s.jsonHook then
                  match c.json(s.data)
                  case None => []
                  case Some(bs) => [SavedJson(s.id, FromBytes(bs))]
                else [];
    var gob := match s.owner
               case Detached => []
               case Managed(onSave) =>
                 if !onSave then []
                 else match c.gob(s.data)
                      case None => []
                      case Some(bs) => [Saved(s.id, bs)];
    json + gob
  }

  /** The payload a restored record starts with (`NewSession`, `NewSessionGob`,
      `AddSession`): the decoded blob when
      there is one and it decodes, otherwise empty. */
  function Restored<T>(blob: seq<T>, decode: seq<T> -> Option<Payload>): (p: Payload)
    ensures |blob| > 0 && decode(blob).Some? ==> p == decode(blob).value
    ensures |blob| == 0 || decode(blob).None? ==> p == map[]
  {
    if |blob| > 0 then
      match decode(blob)
      case None => map[]
      case Some(p) => p
    else map[]
  }

  /** `PutData`: stores the value, then notifies the save hooks. */
  function PutData(s: Session, key: string, value: Value, c: Codecs): (r: Step)
    ensures HasData(r.session, key) && GetData(r.session, key) == value
    ensures forall k :: k != key ==>
      HasData(r.session, k) == HasData(s, k) && GetData(r.session, k) == GetData(s, k)
    ensures SameRecord(s, r.session)
    ensures r.events == Notify(r.session, c)
  {
    var t := s.(data := s.data[key := value]);
    Step(t, Notify(t, c))
  }

  /** `RemoveData`: deletes the key, then notifies the save hooks, also
      when the key was not there. */
  function RemoveData(s: Session, key: string, c: Codecs): (r: Step)
    ensures !HasData(r.session, key) && GetData(r.session, key) == Nil
    ensures forall k :: k != key ==>
      HasData(r.session, k) == HasData(s, k) && GetData(r.session, k) == GetData(s, k)
    ensures !HasData(s, key) ==> r.session == s
    ensures SameRecord(s, r.session)
    ensures r.events == Notify(r.session, c)
  {
    var t := s.(data := s.data - {key});
    assert !HasData(s, key) ==> t.data == s.data;
    Step(t, Notify(t, c))
  }

  /** A record whose hooks are all unset fires nothing on a payload change. */
  lemma SilentWithoutHooks(s: Session, key: string, value: Value, c: Codecs)
    requires !s.jsonHook && s.owner != Managed(true)
    ensures PutData(s, key, value, c).events == []
    ensures RemoveData(s, key, c).events == []
  {
  }
}

=== FILE: sessionids.dfy ===
/** Session identifiers: three random numbers below one million printed as
    `"%d.%d.%d"`, redrawn until the result is not a live key, then passed
    through `url.QueryEscape` (manager.go:100-113, 149; sessionmgr.go:75-88,
    115). The random source is an oracle: the sequence of draws the retry
    loop makes. */
module SessionIds {
  import opened Wrappers
  import opened ByteStrings

  type Sid = string

  /** The bound passed to `rand.Intn`. */
  const RandBound: nat := 1_000_000

  /** One pass of the retry loop: the three numbers `rand.Intn` returned. */
  datatype Draw = Draw(p1: nat, p2: nat, p3: nat) {
    predicate InRange() {
      p1 < RandBound && p2 < RandBound && p3 < RandBound
    }
  }

  predicate IsDigit(c: char) {
    '0' <= c <= '9'
  }

  predicate AllDigits(s: string) {
    forall i :: 0 <= i < |s| ==> IsDigit(s[i])
  }

  function DigitChar(d: nat): (c: char)
    requires d < 10
    ensures IsDigit(c)
  {
    ('0' as int + d) as char
  }

  /** `%d` of a non-negative number: no sign, no leading zeros. */
  function Decimal(n: nat): (s: string)
    ensures 1 <= |s| && AllDigits(s)
    decreases n
  {
    if n < 10 then [DigitChar(n)] else Decimal(n / 10) + [DigitChar(n % 10)]
  }

  /** The number a string of decimal digits denotes; the partner of `Decimal`. */
  function DecimalValue(s: string): nat
    requires AllDigits(s)
  {
    if |s| == 0 then 0
    else DecimalValue(s[..|s| - 1]) * 10 + (s[|s| - 1] as int - '0' as int)
  }

  lemma {:induction false} DecimalRoundTrip(n: nat)
    ensures DecimalValue(Decimal(n)) == n
    decreases n
  {
    if n >= 10 {
      var s := Decimal(n);
      assert s[..|s| - 1] == Decimal(n / 10);
      DecimalRoundTrip(n / 10);
    }
  }

  /** A number below one million prints in at most six digits. */
  lemma {:induction false} DecimalLength(n: nat, bound: nat, width: nat)
    requires n < bound
    requires bound == Power10(width)
    requires width >= 1
    ensures |Decimal(n)| <= width
    decreases width
  {
    if n >= 10 {
      assert width >= 2;
      DecimalLength(n / 10, Power10(width - 1), width - 1);
    }
  }

  function Power10(k: nat): (p: nat)
    ensures p >= 1
  {
    if k == 0 then 1 else 10 * Power10(k - 1)
  }

  function FormatSid(d: Draw): (sid: Sid) {
    Decimal(d.p1) + "." + Decimal(d.p2) + "." + Decimal(d.p3)
  }

  /** The index of the first `'.'` in `s`, if any. */
  function IndexOfDot(s: string): (r: Option<nat>)
    ensures r.Some? ==> r.value < |s| && s[r.value] == '.'
    ensures r.Some? ==> forall j :: 0 <= j < r.value ==> s[j] != '.'
    ensures r.None? ==> forall j :: 0 <= j < |s| ==> s[j] != '.'
  {
    if |s| == 0 then None
    else if s[0] == '.' then Some(0)
    else match IndexOfDot(s[1..])
      case None => None
      case Some(i) => Some(i + 1)
  }

  /** Splits `s` at its first `'.'`. */
  function SplitDot(s: string): (r: Option<(string, string)>)
    ensures r.Some? ==> s == r.value.0 + "." + r.value.1
  {
    match IndexOfDot(s)
    case None => None
    case Some(i) =>
      assert s == s[..i] + "." + s[i + 1..];
      Some((s[..i], s[i + 1..]))
  }

  predicate IsNumeral(s: string) {
    0 < |s| && AllDigits(s)
  }

  /** Reads an id of the form `"a.b.c"` back into its three numbers. */
  function ParseSid(s: string): Option<Draw> {
    match SplitDot(s)
    case None => None
    case Some((a, rest)) =>
      match SplitDot(rest)
      case None => None
      case Some((b, c)) =>
        if IsNumeral(a) && IsNumeral(b) && IsNumeral(c)
        then Some(Draw(DecimalValue(a), DecimalValue(b), DecimalValue(c)))
        else None
  }

  lemma SplitAfterDigits(a: string, rest: string)
    requires AllDigits(a)
    ensures SplitDot(a + "." + rest) == Some((a, rest))
  {
    var s := a + "." + rest;
    assert s[|a|] == '.';
    assert forall j :: 0 <= j < |a| ==> s[j] == a[j];
    assert IndexOfDot(s) == Some(|a|);
    assert s[..|a|] == a && s[|a| + 1..] == rest;
  }

  /** The id shape is unambiguous: parsing a formatted id gives its numbers. */
  lemma ParseFormat(d: Draw)
    ensures ParseSid(FormatSid(d)) == Some(d)
  {
    var a, b, c := Decimal(d.p1), Decimal(d.p2), Decimal(d.p3);
    assert FormatSid(d) == a + "." + (b + "." + c);
    SplitAfterDigits(a, b + "." + c);
    SplitAfterDigits(b, c);
    DecimalRoundTrip(d.p1);
    DecimalRoundTrip(d.p2);
    DecimalRoundTrip(d.p3);
  }

  /** Different draws never print as the same id. */
  lemma FormatInjective(d: Draw, e: Draw)
    requires FormatSid(d) == FormatSid(e)
    ensures d == e
  {
    ParseFormat(d);
    ParseFormat(e);
  }

  /** Characters `url.QueryEscape` leaves as they are (section 2.3 of
      RFC 3986). */
  predicate Unreserved(c: char) {
    'A' <= c <= 'Z' || 'a' <= c <= 'z' || IsDigit(c)
    || c == '-' || c == '_' || c == '.' || c == '~'
  }

  function HexDigit(v: nat): char
    requires v < 16
  {
    "0123456789ABCDEF"[v]
  }

  function EscapeByte(c: char): (r: string)
    requires c as int < 256
    ensures 1 <= |r|
  {
    if Unreserved(c) then [c]
    else if c == ' ' then "+"
    else ['%', HexDigit(c as int / 16), HexDigit(c as int % 16)]
  }

  /** `url.QueryEscape`: a space becomes `'+'`, every byte that is not
      unreserved becomes `%XX` in upper-case hex. */
  function QueryEscape(s: string): (r: string)
    requires IsByteString(s)
    ensures |r| >= |s|
  {
    if |s| == 0 then "" else EscapeByte(s[0]) + QueryEscape(s[1..])
  }

  /** `QueryEscape` is the identity exactly on strings of unreserved
      characters. */
  lemma {:induction false} QueryEscapeIdentity(s: string)
    requires IsByteString(s)
    ensures QueryEscape(s) == s <==> forall i :: 0 <= i < |s| ==> Unreserved(s[i])
  {
    if |s| > 0 {
      var tail := s[1..];
      QueryEscapeIdentity(tail);
      var e := EscapeByte(s[0]);
      assert QueryEscape(s) == e + QueryEscape(tail);
      if Unreserved(s[0]) {
        assert e == [s[0]];
        assert s == [s[0]] + tail;
        if QueryEscape(s) == s {
          assert QueryEscape(tail) == (e + QueryEscape(tail))[1..];
        }
        assert (forall i :: 0 <= i < |s| ==> Unreserved(s[i]))
          <==> (forall i :: 0 <= i < |tail| ==> Unreserved(tail[i])) by {
          forall i | 0 <= i < |tail| ensures tail[i] == s[i + 1] {}
        }
      } else if s[0] == ' ' {
        assert QueryEscape(s)[0] == '+' != s[0];
      } else {
        assert |QueryEscape(s)| >= 3 + |tail| > |s|;
      }
    }
  }

  /** Every formatted id is made of digits and dots, so escaping keeps it. */
  lemma QueryEscapeFormatted(d: Draw)
    ensures IsByteString(FormatSid(d))
    ensures QueryEscape(FormatSid(d)) == FormatSid(d)
  {
    var s := FormatSid(d);
    assert forall i :: 0 <= i < |s| ==> IsDigit(s[i]) || s[i] == '.';
    QueryEscapeIdentity(s);
  }

  /** The index of the first draw whose id is not live: the pass on which
      the retry loop stops. */
  function FirstFreshDraw(live: set<Sid>, draws: seq<Draw>): (i: nat)
    requires exists k :: 0 <= k < |draws| && FormatSid(draws[k]) !in live
    ensures i < |draws| && FormatSid(draws[i]) !in live
    ensures forall j :: 0 <= j < i ==> FormatSid(draws[j]) in live
    decreases |draws|
  {
    if FormatSid(draws[0]) !in live then 0
    else
      assert exists k :: 0 <= k < |draws[1..]| && FormatSid(draws[1..][k]) !in live by {
        var k :| 0 <= k < |draws| && FormatSid(draws[k]) !in live;
        assert FormatSid(draws[1..][k - 1]) !in live;
      }
      1 + FirstFreshDraw(live, draws[1..])
  }

  /** What every formatted id satisfies: it parses back, survives
      escaping, and is at most 20 characters long. */
  lemma FormattedFacts(d: Draw)
    requires d.InRange()
    ensures ParseSid(FormatSid(d)) == Some(d)
    ensures IsByteString(FormatSid(d)) && QueryEscape(FormatSid(d)) == FormatSid(d)
    ensures |FormatSid(d)| <= 20
  {
    ParseFormat(d);
    QueryEscapeFormatted(d);
    DecimalLength(d.p1, RandBound, 6);
    DecimalLength(d.p2, RandBound, 6);
    DecimalLength(d.p3, RandBound, 6);
  }

  /** `generateSessionID`: the id of the first draw that does not collide
      with a live key. Drawing is random in the source; here the draws are
      given, and the precondition that one of them is fresh stands for the
      loop's eventual success. */
  function GenerateSessionID(live: set<Sid>, draws: seq<Draw>): (sid: Sid)
    requires forall k :: 0 <= k < |draws| ==> draws[k].InRange()
    requires exists k :: 0 <= k < |draws| && FormatSid(draws[k]) !in live
    ensures sid !in live
    ensures exists i :: 0 <= i < |draws| && sid == FormatSid(draws[i]) &&
                        (forall j :: 0 <= j < i ==> FormatSid(draws[j]) in live)
    ensures ParseSid(sid).Some? && ParseSid(sid).value.InRange()
    ensures IsByteString(sid) && QueryEscape(sid) == sid
    ensures |sid| <= 20
  {
    var i := FirstFreshDraw(live, draws);
    FormattedFacts(draws[i]);
    FormatSid(draws[i])
  }
}

=== FILE: startup.dfy ===
/** The package-level `sync.Once` of sessionmgr.go:27. manager.go declares
    no `once` of its own (its declaration at manager.go:19 is commented
    out), so `NewManager` (manager.go:55) fires the same `once` that
    `SessionMgr` (sessionmgr.go:43) relies on to build its singleton.
    `Globals` is the package state as written; `OwnGlobals` gives each
    store a `once` of its own. */
module Startup {
  import opened Wrappers
  import Managers
  import Legacy

  /** Whether the shared `once` has fired, and the singleton `ins`
      (`None` while it is nil). */
  datatype Globals = Globals(onceDone: bool, ins: Option<Legacy.Store>)

  const Initial: Globals := Globals(false, None)

  /** `NewManager` as written: its registration block runs under the
      shared `once` and so uses it up, while `ins` stays as it was. */
  function NewManagerShared(g: Globals, adjust: Managers.Options -> Managers.Options): (r: (Globals, Managers.Manager))
    ensures r.0.onceDone && r.0.ins == g.ins
    ensures r.1 == Managers.NewManager(adjust)
    ensures r.1.options == adjust(Managers.Defaults) && r.1.sessions == map[]
  {
    (g.(onceDone := true), Managers.NewManager(adjust))
  }

  /** `SessionMgr` as written: builds the store only if the shared `once`
      has not fired yet, and otherwise returns `ins`, nil or not. */
  function SessionMgrShared(g: Globals): (r: (Globals, Option<Legacy.Store>))
    ensures r.0.onceDone
    ensures !g.onceDone ==> r.1 == Some(Legacy.SessionMgr(false, false)) && r.0.ins == r.1
    ensures g.onceDone ==> r.0 == g && r.1 == g.ins
  {
    if g.onceDone then (g, g.ins)
    else
      var st := Legacy.SessionMgr(false, false);
      (Globals(true, Some(st)), Some(st))
  }

  /** When a `Manager` is built first, `SessionMgr` returns nil, and keeps
      doing so on every later call. */
  lemma ManagerFirstLeavesNoStore(adjust: Managers.Options -> Managers.Options)
    ensures var g := NewManagerShared(Initial, adjust).0;
      && SessionMgrShared(g).1 == None
      && SessionMgrShared(SessionMgrShared(g).0).1 == None
  {
  }

  /** The intended package state: one `once` per store. */
  datatype OwnGlobals = OwnGlobals(managerOnce: bool, legacyOnce: bool, ins: Option<Legacy.Store>)

  const OwnInitial: OwnGlobals := OwnGlobals(false, false, None)

  function NewManagerOwn(g: OwnGlobals, adjust: Managers.Options -> Managers.Options): (r: (OwnGlobals, Managers.Manager))
    ensures r.0.legacyOnce == g.legacyOnce && r.0.ins == g.ins
    ensures r.1 == Managers.NewManager(adjust)
    ensures r.1.options == adjust(Managers.Defaults) && r.1.sessions == map[]
  {
    (g.(managerOnce := true), Managers.NewManager(adjust))
  }

  function SessionMgrOwn(g: OwnGlobals): (r: (OwnGlobals, Option<Legacy.Store>))
    ensures r.0.legacyOnce && r.0.managerOnce == g.managerOnce
    ensures !g.legacyOnce ==> r.1 == Some(Legacy.SessionMgr(false, false)) && r.0.ins == r.1
    ensures g.legacyOnce ==> r.0 == g && r.1 == g.ins
  {
    if g.legacyOnce then (g, g.ins)
    else
      var st := Legacy.SessionMgr(false, false);
      (g.(legacyOnce := true, ins := Some(st)), Some(st))
  }

  /** With a `once` per store, `SessionMgr` returns the same store whether
      or not a `Manager` was built before it, on its first call and on
      every later one. */
  lemma StoreBuiltInAnyOrder(adjust: Managers.Options -> Managers.Options)
    ensures var st := Some(Legacy.SessionMgr(false, false));
      var g := NewManagerOwn(OwnInitial, adjust).0;
      && SessionMgrOwn(OwnInitial).1 == st
      && SessionMgrOwn(g).1 == st
      && SessionMgrOwn(SessionMgrOwn(g).0).1 == st
  {
  }
}

=== FILE: wrappers.dfy ===
/** The one failure-compatible datatype the model needs: a Go nil pointer
    or "not found" result becomes `None`. */
module Wrappers {

  datatype Option<+T> = None | Some(value: T)
}
